=== FILE: README.md ===
# BitTorrent download engine — a Dafny model

This project models the byte-level and bookkeeping core of a small Python
BitTorrent client (futig/BitTorrent-client). It covers the part of a download
that is pure logic. Sockets, HTTP and files are left out; the bytes read and
written are inputs and outputs.

- **Peer-wire codec** (`wire.dfy`, module `Wire`).
  - The handshake, both as joined by the newer connection and as packed with
    `struct` by the older one.
  - The 4-byte big-endian length-prefixed frame, with its reader.
  - The `request`, `have`, `piece` and `interested` messages of the "peer
    protocol" section of BEP 3.
- **Per-peer session** (`session.dfy`, module `Session`), the connection class
  `PeerConnection`. Its state is:
  - the choked flag;
  - the availability bit-set;
  - the requested, downloaded and in-progress pieces;
  - the per-piece block buffers.

  Every received message is a transition. So are the scheduling pass that keeps
  outstanding pieces under the request ceiling and the reassembly of a
  completed piece. The read loop and the connection run over the incoming byte
  stream.
- **Older peer connection** (`peer.dfy`, module `LegacyPeer`), the class
  `Peer`. It keeps only the choked flag and the last bitfield. It asks for one
  whole piece at a time and hands a `piece` message at offset 0 straight to the
  downloader.
- **Blocks** (`blocks.dfy`, module `Blocks`). The 16 KiB block plan of a piece.
  The piece is reassembled in ascending offset order, and the plan tiles the
  piece so that cutting and reassembling gives the piece back.
- **Bitfield** (`bitfield.dfy`, module `Bitfield`). The most-significant-bit
  first convention of BEP 3's `bitfield` message, with its packing inverse.
- **Tracker response** (`tracker.dfy`, module `Tracker`):
  - the compact peer list of BEP 23, with its round trip;
  - the non-compact list of dictionaries;
  - the strict parser of the tracker class;
  - the announce parameters before URL encoding.
- **Downloader** (`downloader.dfy`, module `Downloader`). The forgiving
  tracker-response parser of the downloader and its cap on connections.
- **Piece store and file split** (`store.dfy`, module `PieceStore`):
  - the flat buffer;
  - idempotent `add_piece`;
  - piece validation against the hash list;
  - the cut of the buffer into consecutive per-file slices by `save_file`.
- **Torrent metadata** (`torrent.dfy`, module `Torrent`). Every field of the
  torrent file read from its decoded bencode tree (`bencode.dfy`, module
  `Bencode`), with the errors raised for missing fields.
- **Shared helpers**. Bytes, big-endian integers, Option/Result and the kinds of
  Python exceptions are in `bytes.dfy`, module `Bytes`. Hex digests and
  `bytes.fromhex` are in `hex.dfy`, module `Hex`.

The model keeps the code's quirks and proves them as lemmas:

- **Last piece can be empty.** The last piece is requested with
  `size % piece_length` bytes, which is 0 when the size is an exact multiple
  (`Session.ExactMultipleLastPieceUnrequested`).
- **A short last piece never completes.** Completion compares against the
  nominal piece length (`Session.ShortFinalPieceNeverCompletes`).
- **A keep-alive ends the read loop.** A frame of length 0 stops it in both
  connections (`Session.KeepAliveEndsListen`, `LegacyPeer.KeepAliveEndsListen`).
- **The two tracker parsers disagree.** The tracker class raises on a trailing
  partial compact record and on a missing `peers` key. The downloader swallows
  both into an empty list (`Downloader.PartialRecordSwallowed`).
- **The older connection's guard never skips.** It switches
  `allow_multiple_requests` on just before testing it, so the test never skips
  an index (`LegacyPeer.RequestPieces`).

Exceptions are modelled by kind:

- A raising handler ends the read loop with the state changed so far. In the
  code the exception is caught there.
- A failed parse is a `Result` error.
- SHA-1 is a function parameter `H`.

Where the code and the system's intended design differ, the model follows the
code:

- **Hash mismatch.** The connection removes the piece from `requested` and
  drops its buffer. It does not retry. A piece whose index is not in
  `requested` raises KeyError and ends the session.
- **Files.** The buffer is written to files only at the end, not into
  preallocated files.
- **Last-piece length.** The last piece's requested length is
  `size % piece_length`, not the remainder rounded up to a full piece.
- **Bitfield convention.** It is MSB-first in both connections. The older one
  tests `bitfield[i // 8] & (1 << (7 - i % 8))`.
- **Torrent fields the connection reads.** The newer connection reads
  `pieces_count`, `size`, `info_hash` and `get_piece_hash(i)` from its torrent.
  The model reads them as:
  - the number of piece hashes;
  - the total length;
  - the hex digest;
  - hash `i`.

## Model

| member | source | states |
|---|---|---|
| Bytes.ReadBE32Inverse | application/controller/peer_connection.py:72 | every 4-byte field is the big-endian encoding of the value `struct.unpack("!I")` reads from it |
| Bytes.BE32 | application/controller/peer_connection.py:148-155 | `to_bytes(4, "big")` gives 4 bytes that `struct.unpack("!I")` reads back as the value |
| Bytes.ReadBE32 | application/controller/peer_connection.py:72 | `struct.unpack("!I")` weighs the four bytes 2^24, 2^16, 2^8 and 1, most significant first |
| Bytes.ReadBE16Inverse | application/controller/tracker.py:40 | every 2-byte field is the big-endian encoding of the port `struct.unpack("!H")` reads from it |
| Hex.ToHex | domain/torrent.py:91 | the hex digest has two digits per byte, high nibble first, each reading back as that nibble |
| Hex.FromHex | application/controller/peer_connection.py:48 | `bytes.fromhex` succeeds exactly on an even run of hex digits (either case) and yields half as many bytes; otherwise ValueError |
| Hex.FromHexToHex | application/controller/tracker.py:46 | decoding the hex digest of a byte string gives the byte string back, so the raw 20-byte hash is what reaches the wire and the tracker |
| Wire.Handshake | application/controller/peer_connection.py:44-50 | the joined handshake is the byte 19, the protocol string, eight zero reserved bytes, then the info hash and the peer id; with 20-byte identifiers it is 68 bytes and its fields read back as those identifiers |
| Wire.Fit | domain/peer.py:34 | a `20s` field is exactly 20 bytes: the value's prefix when it is long enough, otherwise the value followed by zero bytes |
| Wire.PackedHandshake | domain/peer.py:29-34 | the packed handshake is always 68 bytes, equals the joined handshake of the two identifiers fitted to 20 bytes, and its fields read back as them |
| Wire.ReadExactly | application/controller/peer_connection.py:54 | `readexactly(n)` succeeds exactly when n bytes are there and splits the stream into the n bytes read and the rest |
| Wire.ReadFrame | domain/peer.py:48-54 | a frame read is the encoding of the frame followed by the rest of the stream; the read is incomplete exactly when fewer than 4 bytes, or fewer than the announced length, remain |
| Wire.EncodedFrameReadsBack | application/controller/peer_connection.py:66-79 | reading an encoded frame gives back the frame and leaves exactly what followed it |
| Wire.InterestedFrame | application/controller/peer_connection.py:114 | the literal `00 00 00 01 02` is the encoded `interested` message: id 2, empty payload |
| Wire.RequestMessage | application/controller/peer_connection.py:148-155 | `generate_request` is 17 bytes, the encoded frame with id 6 and the index, offset and length as 4-byte big-endian fields |
| Wire.RequestMessageReadsBack | application/controller/peer_connection.py:148-155 | a request message reads back as a `request` frame whose three fields are the inputs, leaving what follows untouched |
| Wire.ParseHave | application/controller/peer_connection.py:102 | a `have` payload decodes exactly when it is 4 bytes, to the index whose encoding it is; otherwise struct.error |
| Wire.ParsePiece | application/controller/peer_connection.py:158-160 | a `piece` payload decodes exactly when it has at least 8 bytes; index, offset and block concatenate back to the payload |
| Bitfield.Unpack | application/controller/peer_connection.py:109-111 | `BitArray(bytes=payload, length=n)` succeeds exactly when n fits the payload; bit i is bit 7 − i mod 8 of byte i div 8 |
| Bitfield.UnpackPack | application/controller/peer_connection.py:109-111 | packing an availability bit-set MSB-first and unpacking as many bits gives it back |
| Bitfield.HasPiece | domain/peer.py:104 | `bitfield[i // 8] & (1 << (7 - i % 8))` is set exactly when byte i div 8, divided by 2^(7 − i mod 8), is odd |
| Bitfield.SetPiece | application/controller/peer_connection.py:103 | setting bit i makes bit i true and leaves every other bit and the length unchanged |
| Blocks.PlanFrom | application/controller/peer_connection.py:141-143 | from offset `from`: offsets step by 2^14, each length is min(2^14, size − offset) and positive, blocks stay inside the piece, lengths sum to what is left, empty exactly when nothing is left |
| Blocks.Plan | application/controller/peer_connection.py:141-143 | the block plan of a piece has offsets k·2^14 below its size, positive lengths min(2^14, size − offset) summing to the size, and ⌈size / 2^14⌉ blocks |
| Blocks.PlanCount | application/controller/peer_connection.py:142 | the plan from `from` has ⌈(size − from) / 2^14⌉ blocks |
| Blocks.MinOf | application/controller/peer_connection.py:173 | the chosen offset is in the set and no larger than any other |
| Blocks.SortedKeys | application/controller/peer_connection.py:173 | `sorted(...)` lists exactly the offsets of the set, each once, in strictly ascending order |
| Blocks.SortedKeysOfIncreasing | application/controller/peer_connection.py:173 | an ascending sequence is the sorted listing of its own elements, so the sorted order is unique |
| Blocks.AssembleInOffsetOrder | application/controller/peer_connection.py:172-174 | the reassembled piece is the blocks joined in ascending offset order, whatever ascending listing of the offsets is used |
| Blocks.Assemble | application/controller/peer_connection.py:172-174 | in the joined piece every block sits right after the total length of the blocks at lower offsets |
| Blocks.BufferedLength | application/controller/peer_connection.py:169 | the sum of the buffered block lengths is the length of the reassembled piece |
| Blocks.BufferedLengthAnyOrder | application/controller/peer_connection.py:169 | adding the block lengths up in any order, each offset once, gives the same sum |
| Blocks.PlanTiles | application/controller/peer_connection.py:141-143 | the blocks of the plan cover the piece one after another, none empty, with no gap and no overlap |
| Blocks.TilesIncreasing | application/controller/peer_connection.py:142 | the offsets of a tiling strictly increase |
| Blocks.JoinTiles | application/controller/peer_connection.py:172-174 | joining, in offset order, blocks that hold the data of a tiling rebuilds the data from the tiling's start |
| Blocks.SplitThenAssemble | application/controller/peer_connection.py:172-174 | cutting a piece along its block plan and reassembling the blocks in offset order gives the piece back, and the buffered length is the piece length |
| PieceStore.Init | application/controller/file_manager.py:9 | the buffer starts as `total_length` zero bytes and nothing is stored |
| PieceStore.SliceAssign | application/controller/file_manager.py:32 | `buf[start:end] = data` replaces the clamped slice by `data` and keeps the bytes before and after it |
| PieceStore.AddPiece | application/downloader.py:121-128 | a stored index changes nothing; a new index that fits writes `data` at `index * piece_length`, keeps every other byte and the buffer length, and adds exactly that index |
| PieceStore.AddPieceIdempotent | application/controller/file_manager.py:28-33 | adding the same index a second time, with any data, leaves the store as the first call left it |
| PieceStore.ValidatePiece | application/downloader.py:131-135 | the check succeeds exactly when H(data) equals the recorded hash of the index; an index past the list raises IndexError |
| PieceStore.CutIntoFiles | application/downloader.py:108-115 | file k receives the buffer slice from the sum of the earlier lengths, `length_k` long (clamped at the end), and the files written join to the buffer's prefix of the total length |
| PieceStore.SaveFile | application/controller/file_manager.py:12-23 | in multi-file mode the consecutive per-file slices, in single-file mode the whole buffer under the torrent's name |
| Torrent.GetAnnounce | domain/torrent.py:32-33 | "" when `announce` is absent, otherwise its text; a value that is not a byte string raises |
| Torrent.GetInfo | domain/torrent.py:35-39 | the info value exactly when it is present and non-empty; otherwise ValueError |
| Torrent.GetPieceLength | domain/torrent.py:41-45 | the piece length exactly when it is a non-zero integer; a missing or zero value raises ValueError |
| Torrent.Chunks | domain/torrent.py:54 | a whole number of 20-byte hashes, chunk k being bytes 20k .. 20k + 20, joining back to the input |
| Torrent.GetPieces | domain/torrent.py:47-54 | a missing or empty `pieces` raises ValueError, so does a length that is not a multiple of 20 and an integer raises TypeError; a non-empty byte string of whole hashes gives the list of its 20-byte hashes, joining back to the field |
| Torrent.IsMultiFile | domain/torrent.py:56-57 | multi-file mode exactly when `files` is a key, whatever its value: a non-empty list, an empty value or one that is not a list |
| Torrent.PathComponentsRecovered | domain/torrent.py:65 | a path joined by `/` from components without `/` splits back into those components |
| Torrent.FilesOf | domain/torrent.py:62-66 | one entry per item of `files`, in order, or the error of the first item that fails |
| Torrent.GetFiles | domain/torrent.py:59-71 | multi-file: one entry per file in order with its length and joined path; single-file: it succeeds exactly when `length` is absent or an integer and `name` is absent or a byte string, and then gives exactly one entry with that length and name |
| Torrent.GetName | domain/torrent.py:73-77 | the decoded name exactly when `name` is a non-empty byte string; missing or empty raises ValueError |
| Torrent.TotalLength | domain/torrent.py:79-83 | multi-file: the sum of the lengths, defined exactly when every file has one; single-file: the first file's length, IndexError with no files |
| Torrent.TotalLengthIsLayoutEnd | domain/torrent.py:79-81 | the multi-file total length is where the last file ends in the flat buffer the piece store cuts |
| Torrent.Extract | domain/torrent.py:9-19 | a torrent is extracted only from a dictionary with a non-empty info dictionary, its fields being what the field readers return; a non-dictionary or a missing info fails |
| Tracker.DottedQuad | application/controller/tracker.py:39 | `inet_ntoa` gives the decimal text of the four bytes, separated by exactly three dots |
| Tracker.DottedQuadReadsBack | application/controller/tracker.py:39 | the dotted decimal text of a 4-byte address reads back as that address, so distinct addresses give distinct text |
| Tracker.DecodeCompact | application/controller/tracker.py:38-41 | a string of whole 6-byte records gives one peer per record, in order |
| Tracker.CompactPeers | application/controller/tracker.py:36-41 | the compact branch succeeds exactly when the length is a multiple of 6, with one peer per record, in order |
| Tracker.CompactRecordAt | application/controller/tracker.py:38-40 | record k of an encoded address list holds the k-th address and its port, big-endian |
| Tracker.CompactRoundTrip | application/controller/tracker.py:36-41 | decoding the compact string of a list of addresses gives one peer per address, in order, whose text reads back as the address and whose port is its port |
| Tracker.CompactExample | application/downloader.py:64-71 | the record `7f 00 00 01 1a e1` decodes to ("127.0.0.1", 6881) |
| Tracker.DictPeer | application/controller/tracker.py:33-35 | an entry with a byte-string `ip` gives (the decoded ip, its `port`); a missing key raises KeyError, a non-dictionary entry or a non-byte-string `ip` raises |
| Tracker.DictPeers | application/controller/tracker.py:30-35 | the non-compact list maps each entry to its peer, preserving order, or fails with the first bad entry |
| Tracker.PeersOf | application/controller/tracker.py:30-41 | a list is read as dictionaries, a byte string as compact records, an empty dictionary as no peers; an integer or a non-empty dictionary fails |
| Tracker.ParseResponse | application/controller/tracker.py:26-42 | a missing `peers` key raises KeyError with no default; otherwise the peers of its value |
| Tracker.UrlParams | application/controller/tracker.py:44-54 | exactly seven parameters: the info hash decoded from hex (half as many bytes as digits), the peer id and port as given, uploaded and downloaded 0, left the total length, compact 1; malformed hex raises ValueError |
| Tracker.UrlParamsCarryRawHash | application/controller/tracker.py:45-46 | with the hex digest of a 20-byte hash the `info_hash` parameter is those 20 raw bytes |
| Downloader.ParseTrackerResponse | application/downloader.py:50-74 | the tracker's parse where it succeeds; a decode failure, a non-dictionary, a missing `peers` key or any error of the strict parse gives [] |
| Downloader.PartialRecordSwallowed | application/downloader.py:67-74 | a trailing partial compact record, or a missing `peers` key, is an error for the tracker class and [] for the downloader |
| Downloader.ConnectToPeers | application/downloader.py:76-85 | the first min(\|peers\|, max(1, cap)) peers are started, in tracker order, with a default cap of 50 |
| Session.Limit | application/controller/peer_connection.py:18 | the ceiling is at least 1 and at least `max_requests`, and is one of the two |
| Session.Initial | application/controller/peer_connection.py:22-26 | a new connection is choked, with one clear availability bit per piece and nothing requested, stored or buffered |
| Session.PieceSize | application/controller/peer_connection.py:136-138 | every piece but the last is requested at the nominal length, the last at `size % piece_length`; none is requested at more |
| Session.BlockRequests | application/controller/peer_connection.py:142-146 | one 17-byte request per block of the plan |
| Session.PieceRequests | application/controller/peer_connection.py:135-146 | `_request_piece` writes one 17-byte request per block of the piece's plan |
| Session.BlockRequestsReadBack | application/controller/peer_connection.py:142-155 | the requests written for a plan read back as one request per block, in order, for that piece, offset and length |
| Session.PieceRequestsCoverPiece | application/controller/peer_connection.py:135-146 | the requests for a piece ask, read back in order, for blocks that tile it from offset 0 to its requested size |
| Session.ExactMultipleLastPieceUnrequested | application/controller/peer_connection.py:137-138 | when the total size is a multiple of the piece length, the last piece's size is 0 and no request at all is written for it |
| Session.StartPiece | application/controller/peer_connection.py:140 | starting a piece adds it to `requested`, gives it a fresh empty buffer, and changes nothing else |
| Session.ScheduleFrom | application/controller/peer_connection.py:124-133 | the loop keeps the flag, availability and stored pieces, adds exactly the picks to `requested`, and never passes the ceiling |
| Session.SchedulePicks | application/controller/peer_connection.py:124-131 | the picks strictly ascend, lie in range, and were each available, unrequested and not stored when the pass began |
| Session.ScheduleInProgress | application/controller/peer_connection.py:140 | each picked piece gets a fresh empty buffer and every other buffer is kept |
| Session.ScheduleLowestFirst | application/controller/peer_connection.py:124-133 | an eligible piece is passed over only when the ceiling was reached at a lower index |
| Session.RequestPieces | application/controller/peer_connection.py:120-133 | nothing changes when choked or at the ceiling; otherwise the pass's picks are in range and the bytes written are their requests, piece after piece |
| Session.RequestPiecesCeiling | application/controller/peer_connection.py:121-133 | after an allowed pass \|requested\| never exceeds the ceiling; a piece left eligible means the ceiling was reached at a lower pick |
| Session.StoreBlock | application/controller/peer_connection.py:164-166 | the block is buffered under its offset, creating the piece's buffer when needed; every other block and piece is kept |
| Session.StoreBlockReplaces | application/controller/peer_connection.py:166 | a later block at the same offset replaces the earlier one |
| Session.Complete | application/controller/peer_connection.py:168-171 | a piece counts as complete exactly when its reassembled blocks reach the nominal piece length |
| Session.ShortFinalPieceNeverCompletes | application/controller/peer_connection.py:168-171 | a short final piece, received in full, reassembles correctly but never reaches the nominal length, so it never completes |
| Session.CompletePiece | application/controller/peer_connection.py:172-184 | the piece joins `downloaded` and the store only when H(assembled) matches its hash; either way the buffer is dropped and the index leaves `requested` (KeyError when it was not there); an index past the hashes raises |
| Session.HandlePiece | application/controller/peer_connection.py:157-185 | a payload under 8 bytes raises; the block is buffered and, once the piece is complete, it is checked and a scheduling pass follows |
| Session.HandleHave | application/controller/peer_connection.py:101-106 | `have i` sets exactly bit i and keeps every other bit, then schedules; a bad payload or an index past the bit-set raises |
| Session.HandleBitfield | application/controller/peer_connection.py:108-115 | availability becomes the first `pieces_count` bits of the payload, MSB-first, and exactly `00 00 00 01 02` is written; too short a payload raises |
| Session.HandleMessage | application/controller/peer_connection.py:89-118 | `choke` sets the flag and does nothing else; `unchoke` clears it and runs a scheduling pass; `have`, `bitfield` and `piece` go to their handlers; unknown ids change nothing |
| Session.InitialInv | application/controller/peer_connection.py:22-26 | a new connection satisfies the session invariant |
| Session.ScheduleKeepsInv | application/controller/peer_connection.py:121-133 | a scheduling pass keeps the ceiling and keeps every requested piece real, buffered and not stored |
| Session.CompletePieceKeepsInv | application/controller/peer_connection.py:175-184 | completing a piece keeps the session invariant |
| Session.HandlePieceKeepsInv | application/controller/peer_connection.py:157-185 | a `piece` message keeps the session invariant |
| Session.HandleMessageKeepsInv | application/controller/peer_connection.py:89-118 | every message keeps the session invariant, whatever its payload and whether or not it raises |
| Session.Listen | application/controller/peer_connection.py:64 | the loop does not read once every piece is downloaded |
| Session.ListenLeavesSuffix | application/controller/peer_connection.py:63-87 | what the read loop leaves unread is a suffix of the stream |
| Session.KeepAliveEndsListen | application/controller/peer_connection.py:72-76 | a zero-length frame ends the loop with nothing changed and the rest unread |
| Session.ListenKeepsInv | application/controller/peer_connection.py:63-87 | the read loop keeps the session invariant |
| Session.Connect | application/controller/peer_connection.py:28-36 | malformed hex writes nothing; otherwise the handshake is written first, a reply of its length is read, and the loop runs on what follows |
| Session.ConnectHandshake | application/controller/peer_connection.py:44-54 | with the hex digest of a 20-byte hash and a 20-byte id, the first 68 bytes written are the handshake carrying them, and 68 reply bytes are consumed |
| LegacyPeer.Available | domain/peer.py:99-105 | with no or an empty bitfield every piece passes the availability test; with one, piece i passes exactly when bit i of the bitfield read MSB-first is set, and no piece past its bits passes |
| LegacyPeer.FirstStop | domain/peer.py:99-105 | the index at which the loop over the pieces stops skipping: nothing before it stops the loop, and it does when in range |
| LegacyPeer.SendRequest | domain/peer.py:114-123 | nothing when choked; otherwise the 17-byte request for offset 0 and the nominal length, or struct.error for a value past 32 bits |
| LegacyPeer.RequestPieces | domain/peer.py:97-123 | when an unchoked pass reaches a wanted piece, it sends the request for the lowest one, or raises struct.error when the index or length does not fit 32 bits; nothing while choked; an IndexError exactly when the bit test reads past a non-empty bitfield; the flag ends up on exactly when the loop reached the send |
| LegacyPeer.RequestReadsBack | domain/peer.py:111-123 | the request sent reads back as a `request` frame for the lowest wanted piece, offset 0 and the nominal length |
| LegacyPeer.NoBitfieldAsksLowestMissing | domain/peer.py:99-105 | with no bitfield, an unchoked connection asks for the lowest piece not yet stored |
| LegacyPeer.HandlePiece | domain/peer.py:84-94 | a short payload raises; a block at an offset other than 0 is dropped; at offset 0 it is stored exactly when it matches its hash |
| LegacyPeer.HandleMessage | domain/peer.py:63-95 | `choke` sets the flag; `unchoke` clears it and `bitfield` keeps the raw payload, each followed by a request pass whose bytes are what is sent; `have` only decodes; only `piece` touches the store; unknown ids change nothing |
| LegacyPeer.HandleMessageKeepsInv | domain/peer.py:84-92 | the store only grows, holds real pieces only, and gains an index only from a `piece` at offset 0 whose data matches that index's hash |
| LegacyPeer.Listen | domain/peer.py:46-49 | with fewer than 4 bytes left the loop ends with nothing changed |
| LegacyPeer.KeepAliveEndsListen | domain/peer.py:49-52 | a length of 0 ends the loop with nothing changed and the rest unread |
| LegacyPeer.ListenLeavesSuffix | domain/peer.py:44-61 | what the read loop leaves unread is a suffix of the stream |
| LegacyPeer.ListenKeepsInv | domain/peer.py:44-61 | the read loop keeps the store invariant and only ever adds pieces |
| LegacyPeer.Connect | domain/peer.py:18-25 | malformed hex writes nothing; otherwise the packed handshake is written first, a 68-byte reply is read, and the loop runs on what follows |
| LegacyPeer.ConnectHandshake | domain/peer.py:27-39 | with the hex digest of a 20-byte hash the handshake written carries it and the peer id fitted to 20 bytes, and 68 reply bytes are consumed |

## Left out

- Sockets, asyncio and timeouts are left out: `open_connection`, `wait_for`, `drain`, `gather` and the `monitor_download` sleep loop. The bytes a peer sends are one input sequence and the bytes written are an output. A short `readexactly` ends the loop without modelling what it consumed.
- The `asyncio.Lock` around `add_piece` is left out; the store takes one atomic step.
- Tasks started with `asyncio.create_task` by the older connection run to completion at once. An exception inside such a task is recorded in `Outcome.error` and reaches no caller.
- aiohttp requests, HTTP status handling and `urlencode` are left out; the announce parameters are modelled before encoding. `Tracker.get_peers` (application/controller/tracker.py:17-23) uses a `http_client` that is never set and a method the class does not define, so only `_parse_response` and the parameter map are modelled.
- bencode decoding and encoding, and `get_info_hash`, are calls into a library. The decoded tree is an input datatype, and the info hash is its hex digest as text. Dictionary keys are written as text.
- SHA-1 is not modelled; it is the function parameter `H`.
- UTF-8 decoding is modelled as one character per byte; errors on invalid UTF-8 are not modelled.
- `bytes.fromhex` skipping whitespace is not modelled; whitespace is rejected like any other non-digit.
- The random peer id is an input.
- application/controller/downloader.py is orchestration and is not part of this model.
- The command line, configuration parsing, the exception classes and the interfaces are not part of this model. Neither is the debug `print` logging.
- The `MessageTypes` module is not part of this model; the message ids are taken from BEP 3 (choke 0, unchoke 1, have 4, bitfield 5, piece 7).
- The older connection's `interested` field is never read or written after construction, so it is not modelled.
- Values of the wrong Python type that the code passes on unchecked are not modelled. The code tests no types: it keeps such a value, and any error comes later, in arithmetic or I/O. The model refuses the value where it is read, as a TypeError. The members this affects follow.
- Tracker.DictPeer: a `port` that is not an integer is a TypeError; application/controller/tracker.py:34 passes it on unchecked.
- Torrent.GetPieceLength: a non-empty value that is not an integer is a TypeError; domain/torrent.py:42-45 returns it unchecked.
- Torrent.GetPieces: a non-empty list whose length is a multiple of 20 is a TypeError; domain/torrent.py:54 slices it into 20-item lists.
- Torrent.GetFiles: in single-file mode, an info `length` that is not an integer is a TypeError, where domain/torrent.py:69 keeps it unchecked. The multi-file items are as for Torrent.FilesOf.
- Torrent.FilesOf: a `length` that is not an integer is a TypeError, where domain/torrent.py:64 keeps it unchecked. A `path` that is a non-empty dictionary is a TypeError, where domain/torrent.py:65 joins its keys.
- `AttributeError` (a `.decode` or `.get` on a value of the wrong kind) is reported as TypeError; the two kinds are not told apart.
- PieceStore.AddPiece: models `Downloader.add_piece` (application/downloader.py:121-128), whose fields are all set. `FileManager.add_piece` (application/controller/file_manager.py:27-33), which the newer connection calls, has the same body, but it reads `downloaded_pieces`, `piece_length` and `total_pieces`, which its constructor never sets. So in the code it raises AttributeError.
- Session.CompletePiece: stores a piece that passes its hash check and goes on. In the code the store call is `FileManager.add_piece`, which raises AttributeError (line above). So the code's read loop ends at the first piece that passes its check, before `downloaded` and `requested` change.
- PieceStore.SaveFile: `FileManager.save_file` (application/controller/file_manager.py:12-23) reads `self.torrent`, which is never set, so in the code it raises AttributeError. The model takes the torrent's layout as a parameter.
- Session.RequestPieces: requires a context whose piece length is positive and below 2^32 and whose piece count is at most 2^32. So the OverflowError of `to_bytes` for a field at or above 2^32, and the ZeroDivisionError of a zero piece length, are not modelled.
- Session.HandleMessage: requires the same context, for the same reason.
- Session.HandlePiece: requires the same context, for the same reason.
- Session.HandleHave: requires the same context, for the same reason.
- Session.Listen: requires the same context, for the same reason. Its own contract states only the bound on the loop; what it leaves unread, how a keep-alive ends it and the invariant it keeps are the lemmas `Session.ListenLeavesSuffix`, `Session.KeepAliveEndsListen` and `Session.ListenKeepsInv`.
- Session.Connect: requires the same context, for the same reason.
- LegacyPeer.Listen: its own contract states only the short-stream case; the rest is stated by `LegacyPeer.ListenLeavesSuffix`, `LegacyPeer.KeepAliveEndsListen` and `LegacyPeer.ListenKeepsInv`.
- Closing the writer after the read loop and file opens in `save_file` are I/O and are not modelled.

=== FILE: bencode.dfy ===
/** The decoded bencode tree that the torrent reader and the tracker parsers
    walk. Decoding itself belongs to an external library and is not part of
    the model; the tree is the input. */
module Bencode {
  import opened Bytes

  /** A bencoded value as the decoder hands it over: integers, byte strings,
      lists and dictionaries. Dictionary keys are byte strings in the source;
      the model writes them as text. */
  datatype BValue =
    | BInt(n: int)
    | BBytes(s: seq<byte>)
    | BList(items: seq<BValue>)
    | BDict(entries: map<string, BValue>)

  /** Python truthiness of a decoded value, as `if not value:` tests it: 0,
      the empty byte string, the empty list and the empty dict are false. */
  predicate Truthy(v: BValue)
  {
    match v
    case BInt(n) => n != 0
    case BBytes(s) => s != []
    case BList(xs) => xs != []
    case BDict(m) => m != map[]
  }

  /** `len(v)`, defined for every value but an integer (which raises
      TypeError). */
  function Len(v: BValue): nat
    requires !v.BInt?
  {
    match v
    case BBytes(s) => |s|
    case BList(xs) => |xs|
    case BDict(m) => |m|
  }

  /** `d.get(key)`: the value under `key`, None when absent. */
  function Get(d: map<string, BValue>, key: string): (r: Option<BValue>)
    ensures r.Some? <==> key in d
    ensures r.Some? ==> r.value == d[key]
  {
    if key in d then Some(d[key]) else None
  }

  /** `if not d.get(key)`: the key is absent or its value is false. */
  predicate Missing(d: map<string, BValue>, key: string)
  {
    key !in d || !Truthy(d[key])
  }
}

=== FILE: bitfield.dfy ===
/** The `bitfield` payload of BEP 3: one bit per piece, most significant bit
    first, so the high bit of byte 0 stands for piece 0. */
module Bitfield {
  import opened Bytes

  /** `b >> n`: `b` halved `n` times. */
  function Shift(b: nat, n: nat): nat
  {
    if n == 0 then b else Shift(b / 2, n - 1)
  }

  /** The k-th bit of `b` from the top is set: `b & (1 << (7 - k)) != 0`,
      written as the low bit of `b >> (7 - k)`. */
  predicate BitAt(b: byte, k: nat)
    requires k < 8
  {
    Shift(b, 7 - k) % 2 == 1
  }

  /** The value of `1 << (7 - k)` for the bit positions `k` of a byte. */
  const BIT_WEIGHT: seq<nat> := [128, 64, 32, 16, 8, 4, 2, 1]

  /** Piece `i` is marked in the bitfield: bit `7 - i mod 8` of byte
      `i div 8`, the bit `bits[i // 8] & (1 << (7 - i % 8))` tests. */
  function HasPiece(bits: seq<byte>, i: nat): (r: bool)
    requires i / 8 < |bits|
    ensures r <==> (bits[i / 8] / BIT_WEIGHT[i % 8]) % 2 == 1
  {
    ShiftByte(bits[i / 8], i % 8);
    BitAt(bits[i / 8], i % 8)
  }

  /** One more shift halves the result. */
  lemma {:induction false} ShiftOnce(b: nat, n: nat)
    ensures Shift(b, n + 1) == Shift(b, n) / 2
  {
    if n > 0 {
      ShiftOnce(b / 2, n - 1);
    }
  }

  /** Shifting a byte right by `7 - k` divides it by `1 << (7 - k)`. */
  lemma ShiftByte(b: nat, k: nat)
    requires k < 8
    ensures Shift(b, 7 - k) == b / BIT_WEIGHT[k]
  {
    ShiftOnce(b, 0);
    ShiftOnce(b, 1);
    ShiftOnce(b, 2);
    ShiftOnce(b, 3);
    ShiftOnce(b, 4);
    ShiftOnce(b, 5);
    ShiftOnce(b, 6);
    assert Shift(b, 2) == b / 4;
    assert Shift(b, 3) == b / 8;
    assert Shift(b, 4) == b / 16;
    assert Shift(b, 5) == b / 32;
    assert Shift(b, 6) == b / 64;
    assert Shift(b, 7) == b / 128;
  }

  /** The first `n` bits of `payload`, most significant bit first
      (`bitstring.BitArray(bytes=payload, length=n)`); a payload with fewer
      than `n` bits is refused (the library raises). */
  function Unpack(payload: seq<byte>, n: nat): (r: Result<seq<bool>>)
    ensures r.Ok? <==> n <= 8 * |payload|
    ensures r.Ok? ==> |r.value| == n && forall i :: 0 <= i < n ==> r.value[i] == HasPiece(payload, i)
  {
    if n <= 8 * |payload| then Ok(seq(n, i requires 0 <= i < n => HasPiece(payload, i)))
    else Err(ValueError("bitfield too short"))
  }

  /** 1 when piece `i` is set in `bits`, 0 when it is clear or past the end. */
  function BitValue(bits: seq<bool>, i: nat): (v: nat)
    ensures v <= 1
  {
    if i < |bits| && bits[i] then 1 else 0
  }

  /** The `j` bits of `bits` from position `i` on, read as a binary number,
      first bit most significant (bits past the end count as 0). */
  function Horner(bits: seq<bool>, i: nat, j: nat): nat
  {
    if j == 0 then 0 else 2 * Horner(bits, i, j - 1) + BitValue(bits, i + j - 1)
  }

  function Pow2(n: nat): nat
  {
    if n == 0 then 1 else 2 * Pow2(n - 1)
  }

  lemma {:induction false} HornerBound(bits: seq<bool>, i: nat, j: nat)
    ensures Horner(bits, i, j) < Pow2(j)
  {
    if j > 0 { HornerBound(bits, i, j - 1); }
  }

  /** Shifting the number right until bit `k` is lowest exposes bit `i + k`. */
  lemma {:induction false} HornerBit(bits: seq<bool>, i: nat, j: nat, k: nat)
    requires k < j
    ensures Shift(Horner(bits, i, j), j - 1 - k) % 2 == BitValue(bits, i + k)
  {
    if k < j - 1 {
      var h := Horner(bits, i, j);
      assert h / 2 == Horner(bits, i, j - 1);
      HornerBit(bits, i, j - 1, k);
    }
  }

  /** Byte `q` of the packed bitfield: bits `8q .. 8q+7`, highest first. */
  function PackByte(bits: seq<bool>, q: nat): (b: byte)
  {
    HornerBound(bits, 8 * q, 8);
    Horner(bits, 8 * q, 8)
  }

  /** A bitfield payload for an availability bit-set: one byte per eight
      pieces, spare low bits of the last byte clear. */
  function Pack(bits: seq<bool>): (r: seq<byte>)
    ensures |r| == (|bits| + 7) / 8
  {
    seq((|bits| + 7) / 8, q requires 0 <= q => PackByte(bits, q))
  }

  lemma PackByteBit(bits: seq<bool>, q: nat, k: nat)
    requires k < 8
    ensures BitAt(PackByte(bits, q), k) <==> BitValue(bits, 8 * q + k) == 1
  {
    HornerBit(bits, 8 * q, 8, k);
  }

  /** Packing a bit-set and unpacking as many bits as it has gives it back:
      the payload marks exactly the pieces the bit-set holds. */
  lemma {:induction false} UnpackPack(bits: seq<bool>)
    ensures Unpack(Pack(bits), |bits|) == Ok(bits)
  {
    var p := Pack(bits);
    forall i | 0 <= i < |bits|
      ensures HasPiece(p, i) == bits[i]
    {
      PackByteBit(bits, i / 8, i % 8);
      assert 8 * (i / 8) + i % 8 == i;
    }
    var r := Unpack(p, |bits|);
    assert r.Ok?;
    assert r.value == bits;
  }

  /** The `have` update: piece `i` becomes available, nothing else changes. */
  function SetPiece(available: seq<bool>, i: nat): (r: seq<bool>)
    requires i < |available|
    ensures |r| == |available| && r[i]
    ensures forall j :: 0 <= j < |available| && j != i ==> r[j] == available[j]
  {
    available[i := true]
  }
}

=== FILE: blocks.dfy ===
/** Pieces travel as 16 KiB blocks: the request plan that cuts a piece into
    blocks, and the reassembly that joins received blocks in ascending offset
    order. */
module Blocks {
  import opened Bytes

  /** Block size of the request plan, 2^14 bytes. */
  const BLOCK_SIZE: nat := 0x4000

  /** The byte range from `offset` up to, not including, `offset + length` of one block of a piece. */
  datatype Span = Span(offset: nat, length: nat)

  function Lengths(p: seq<Span>): (r: seq<int>)
    ensures |r| == |p| && forall k :: 0 <= k < |p| ==> r[k] == p[k].length
  {
    if p == [] then [] else [p[0].length] + Lengths(p[1..])
  }

  /** The blocks requested for a piece of `size` bytes, from offset `from` on:
      `for offset in range(from, size, 2**14)`, each of length
      `min(2**14, size - offset)`. The offsets step by 2^14, every block is
      non-empty and inside the piece, and the lengths add up to what is left
      of the piece. */
  function PlanFrom(size: nat, from: nat): (p: seq<Span>)
    ensures forall k :: 0 <= k < |p| ==> p[k].offset == from + k * BLOCK_SIZE
    ensures forall k :: 0 <= k < |p| ==> 0 < p[k].length <= BLOCK_SIZE && p[k].offset + p[k].length <= size
    ensures forall k :: 0 <= k < |p| ==> p[k].length == Min(BLOCK_SIZE, size - p[k].offset)
    ensures Sum(Lengths(p)) == if from <= size then size - from else 0
    ensures |p| == 0 <==> size <= from
    decreases size - from
  {
    if size <= from then []
    else
      var rest := PlanFrom(size, from + BLOCK_SIZE);
      assert Lengths([Span(from, Min(BLOCK_SIZE, size - from))] + rest)
          == [Min(BLOCK_SIZE, size - from)] + Lengths(rest);
      [Span(from, Min(BLOCK_SIZE, size - from))] + rest
  }

  /** The request plan of a whole piece of `size` bytes. */
  function Plan(size: nat): (p: seq<Span>)
    ensures Sum(Lengths(p)) == size
    ensures forall k :: 0 <= k < |p| ==> p[k].offset == k * BLOCK_SIZE && p[k].offset < size
    ensures forall k :: 0 <= k < |p| ==> p[k].length == Min(BLOCK_SIZE, size - p[k].offset) > 0
    ensures |p| == (size + BLOCK_SIZE - 1) / BLOCK_SIZE
  {
    var p := PlanFrom(size, 0);
    PlanCount(size, 0);
    p
  }

  lemma {:induction false} PlanCount(size: nat, from: nat)
    requires from <= size
    ensures |PlanFrom(size, from)| == (size - from + BLOCK_SIZE - 1) / BLOCK_SIZE
    decreases size - from
  {
    if from < size {
      if from + BLOCK_SIZE <= size {
        PlanCount(size, from + BLOCK_SIZE);
      }
    }
  }

  // ---------------------------------------------------------------------------
  // Reassembly

  predicate Increasing(r: seq<nat>)
  {
    forall i, j :: 0 <= i < j < |r| ==> r[i] < r[j]
  }

  lemma IncreasingCons(x: nat, t: seq<nat>)
    requires Increasing(t)
    requires forall k :: 0 <= k < |t| ==> x < t[k]
    ensures Increasing([x] + t)
  {
    var r := [x] + t;
    forall i, j | 0 <= i < j < |r| ensures r[i] < r[j] {
      assert r[j] == t[j - 1];
      if i > 0 {
        assert r[i] == t[i - 1];
      }
    }
  }

  /** A least element of a non-empty set, found by taking elements out one
      at a time. */
  ghost function Least(ks: set<nat>): (m: nat)
    requires ks != {}
    ensures m in ks && forall k :: k in ks ==> m <= k
    decreases |ks|
  {
    var x :| x in ks;
    var rest := ks - {x};
    if rest == {} then
      assert forall k :: k in ks ==> k == x || k in rest;
      x
    else
      var r := Least(rest);
      assert forall k :: k in ks ==> k == x || k in rest;
      Min(x, r)
  }

  /** The least element of a non-empty set of offsets. */
  function MinOf(ks: set<nat>): (m: nat)
    requires ks != {}
    ensures m in ks && forall k :: k in ks ==> m <= k
  {
    assert Least(ks) in ks && forall k :: k in ks ==> Least(ks) <= k;
    var m :| m in ks && forall k :: k in ks ==> m <= k; m
  }

  /** The offsets of a set in ascending order (`sorted(...)`). */
  function SortedKeys(ks: set<nat>): (r: seq<nat>)
    ensures |r| == |ks|
    ensures forall k :: k in r <==> k in ks
    ensures Increasing(r)
    decreases |ks|
  {
    if ks == {} then []
    else
      var m := MinOf(ks);
      var rest := SortedKeys(ks - {m});
      forall k | 0 <= k < |rest| ensures m < rest[k] {
        assert rest[k] in ks - {m};
      }
      IncreasingCons(m, rest);
      [m] + rest
  }

  lemma MinOfIncreasing(r: seq<nat>, ks: set<nat>)
    requires Increasing(r) && r != []
    requires forall k :: k in ks <==> k in r
    ensures ks != {} && MinOf(ks) == r[0]
  {
    assert r[0] in ks;
    var m := MinOf(ks);
    var j :| 0 <= j < |r| && r[j] == m;
    assert r[0] <= r[j];
  }

  lemma DropFirst(r: seq<nat>, ks: set<nat>)
    requires Increasing(r) && r != []
    requires forall k :: k in ks <==> k in r
    ensures Increasing(r[1..])
    ensures forall k :: k in ks - {r[0]} <==> k in r[1..]
  {
    forall k ensures k in ks - {r[0]} <==> k in r[1..] {
      if k in r[1..] {
        var j :| 0 <= j < |r[1..]| && r[1..][j] == k;
        assert r[j + 1] == k && r[0] < r[j + 1];
      }
      if k in ks - {r[0]} {
        var j :| 0 <= j < |r| && r[j] == k;
        assert j != 0;
        assert r[1..][j - 1] == k;
      }
    }
  }

  /** An ascending sequence is the sorted listing of its own elements. */
  lemma {:induction false} SortedKeysOfIncreasing(r: seq<nat>, ks: set<nat>)
    requires Increasing(r)
    requires forall k :: k in ks <==> k in r
    ensures SortedKeys(ks) == r
    decreases |r|
  {
    if r == [] {
      assert forall k :: k !in ks;
    } else {
      MinOfIncreasing(r, ks);
      DropFirst(r, ks);
      SortedKeysOfIncreasing(r[1..], ks - {r[0]});
      SortedKeysCons(r, ks);
    }
  }

  lemma SortedKeysCons(r: seq<nat>, ks: set<nat>)
    requires r != [] && ks != {} && MinOf(ks) == r[0]
    requires SortedKeys(ks - {r[0]}) == r[1..]
    ensures SortedKeys(ks) == r
  {
    assert r == [r[0]] + r[1..];
  }

  /** The blocks at the given offsets, joined in the order given. */
  function Join(blocks: map<nat, seq<byte>>, keys: seq<nat>): seq<byte>
    requires forall k :: k in keys ==> k in blocks
  {
    if keys == [] then [] else blocks[keys[0]] + Join(blocks, keys[1..])
  }

  /** The total length of the blocks listed in `keys` at offsets below `k`. */
  function LengthBelow(blocks: map<nat, seq<byte>>, keys: seq<nat>, k: nat): nat
    requires forall j :: j in keys ==> j in blocks
  {
    if keys == [] then 0
    else (if keys[0] < k then |blocks[keys[0]]| else 0) + LengthBelow(blocks, keys[1..], k)
  }

  /** Where the block at offset `k` starts in the reassembled piece: after
      every block at a lower offset. */
  function Before(blocks: map<nat, seq<byte>>, k: nat): nat
  {
    LengthBelow(blocks, SortedKeys(blocks.Keys), k)
  }

  /** The block at offset `k` sits in `r` right after the blocks at lower
      offsets. */
  predicate Placed(blocks: map<nat, seq<byte>>, r: seq<byte>, k: nat)
    requires k in blocks
  {
    SitsAt(r, Before(blocks, k), blocks[k])
  }

  /** `r` holds `block` starting at position `at`. */
  predicate SitsAt(r: seq<byte>, at: nat, block: seq<byte>)
  {
    at + |block| <= |r| && r[at .. at + |block|] == block
  }

  /** The piece rebuilt from its buffered blocks,
      `b"".join(block for _, block in sorted(blocks.items()))`: every block
      sits in it right after the blocks at lower offsets. */
  function Assemble(blocks: map<nat, seq<byte>>): (r: seq<byte>)
    ensures forall k {:trigger Placed(blocks, r, k)} :: k in blocks ==> Placed(blocks, r, k)
  {
    SortedJoinPlaces(blocks);
    Join(blocks, SortedKeys(blocks.Keys))
  }

  /** Joined in ascending order of offset, every block comes right after
      the blocks at lower offsets. */
  lemma SortedJoinPlaces(blocks: map<nat, seq<byte>>)
    ensures forall k {:trigger Placed(blocks, Join(blocks, SortedKeys(blocks.Keys)), k)} :: k in blocks ==> Placed(blocks, Join(blocks, SortedKeys(blocks.Keys)), k)
  {
    forall k | k in blocks ensures Placed(blocks, Join(blocks, SortedKeys(blocks.Keys)), k) {
      SortedJoinPlacesOne(blocks, k);
    }
  }

  lemma {:induction false} SortedJoinPlacesOne(blocks: map<nat, seq<byte>>, k: nat)
    requires k in blocks
    ensures Placed(blocks, Join(blocks, SortedKeys(blocks.Keys)), k)
  {
    var keys := SortedKeys(blocks.Keys);
    assert k in keys;
    JoinPlacesAlong(blocks, keys, k);
    PlacedAt(blocks, Join(blocks, keys), k, LengthBelow(blocks, keys, k));
  }

  /** `Placed`, from the position of the block. */
  lemma {:induction false} PlacedAt(blocks: map<nat, seq<byte>>, r: seq<byte>, k: nat, at: nat)
    requires k in blocks && at == Before(blocks, k)
    requires SitsAt(r, at, blocks[k])
    ensures Placed(blocks, r, k)
  {
  }

  /** Joined along ascending offsets, the block at `k` comes right after the
      blocks listed below it. */
  lemma {:induction false} JoinPlacesAlong(blocks: map<nat, seq<byte>>, keys: seq<nat>, k: nat)
    requires Increasing(keys) && k in keys
    requires forall j :: j in keys ==> j in blocks
    ensures SitsAt(Join(blocks, keys), LengthBelow(blocks, keys, k), blocks[k])
    decreases |keys|
  {
    var x := keys[0];
    var rest := keys[1..];
    assert Increasing(rest) by {
      forall i, j | 0 <= i < j < |rest| ensures rest[i] < rest[j] {
        assert rest[i] == keys[i + 1] && rest[j] == keys[j + 1];
      }
    }
    if x == k {
      forall j | j in rest ensures k < j {
        var i :| 0 <= i < |rest| && rest[i] == j;
        assert keys[i + 1] == j;
      }
      NothingBelow(blocks, rest, k);
    } else {
      var i :| 0 <= i < |keys| && keys[i] == k;
      assert i > 0 && x < k;
      assert rest[i - 1] == k;
      JoinPlacesAlong(blocks, rest, k);
      var tail := Join(blocks, rest);
      var at := LengthBelow(blocks, rest, k);
      assert Join(blocks, keys) == blocks[x] + tail;
      SliceAfter(blocks[x], tail, at, at + |blocks[k]|);
    }
  }

  /** No block is listed below `k` when every listed offset is above it. */
  lemma {:induction false} NothingBelow(blocks: map<nat, seq<byte>>, keys: seq<nat>, k: nat)
    requires forall j :: j in keys ==> j in blocks && k < j
    ensures LengthBelow(blocks, keys, k) == 0
    decreases |keys|
  {
    if keys != [] {
      assert keys[0] in keys;
      NothingBelow(blocks, keys[1..], k);
    }
  }

  /** Joining along the same offsets in two maps that agree on them gives
      the same bytes. */
  lemma {:induction false} JoinAgree(a: map<nat, seq<byte>>, b: map<nat, seq<byte>>, keys: seq<nat>)
    requires forall k :: k in keys ==> k in a && k in b && a[k] == b[k]
    ensures Join(a, keys) == Join(b, keys)
  {
    if keys != [] {
      JoinAgree(a, b, keys[1..]);
    }
  }

  /** The least buffered block comes first, then the rest reassembled. */
  lemma AssembleFirst(blocks: map<nat, seq<byte>>)
    requires blocks.Keys != {}
    ensures var m := MinOf(blocks.Keys);
      Assemble(blocks) == blocks[m] + Assemble(blocks - {m})
  {
    var m := MinOf(blocks.Keys);
    SortedJoinFirst(blocks, m);
    assert (blocks - {m}).Keys == blocks.Keys - {m};
  }

  lemma SortedJoinFirst(blocks: map<nat, seq<byte>>, m: nat)
    requires blocks.Keys != {} && m == MinOf(blocks.Keys)
    ensures Join(blocks, SortedKeys(blocks.Keys)) == blocks[m] + Join(blocks - {m}, SortedKeys(blocks.Keys - {m}))
  {
    var rest := SortedKeys(blocks.Keys - {m});
    SortedKeysUnfold(blocks.Keys);
    assert ([m] + rest)[1..] == rest;
    JoinAgree(blocks, blocks - {m}, rest);
  }

  /** The number of bytes buffered, `sum(len(block) for block in
      blocks.values())`, added up from the lowest offset; it is the length
      of the reassembled piece, and by BufferedLengthAnyOrder the sum does
      not depend on the order the blocks are taken in. */
  function BufferedLength(blocks: map<nat, seq<byte>>): (n: nat)
    ensures n == |Assemble(blocks)|
    decreases |blocks.Keys|
  {
    if blocks.Keys == {} then
      assert Assemble(blocks) == [];
      0
    else
      var m := MinOf(blocks.Keys);
      AssembleFirst(blocks);
      assert (blocks - {m}).Keys == blocks.Keys - {m};
      |blocks[m]| + BufferedLength(blocks - {m})
  }

  /** Reassembly joins the blocks in ascending offset order: it equals the
      join along any ascending listing of exactly the buffered offsets. */
  lemma AssembleInOffsetOrder(blocks: map<nat, seq<byte>>, keys: seq<nat>)
    requires Increasing(keys)
    requires forall k :: k in keys <==> k in blocks
    ensures Assemble(blocks) == Join(blocks, keys)
  {
    SortedKeysOfIncreasing(keys, blocks.Keys);
  }

  lemma SortedKeysUnfold(ks: set<nat>)
    requires ks != {}
    ensures SortedKeys(ks) == [MinOf(ks)] + SortedKeys(ks - {MinOf(ks)})
  {
  }

  lemma JoinLengthCons(blocks: map<nat, seq<byte>>, k: nat, rest: seq<nat>)
    requires k in blocks && forall j :: j in rest ==> j in blocks
    ensures |Join(blocks, [k] + rest)| == |blocks[k]| + |Join(blocks, rest)|
  {
    assert ([k] + rest)[1..] == rest;
  }

  /** Taking out one block of the sorted join shortens it by exactly that
      block's length, wherever its offset falls. */
  lemma {:induction false} SortedJoinRemove(blocks: map<nat, seq<byte>>, ks: set<nat>, x: nat)
    requires x in ks && ks <= blocks.Keys
    ensures |Join(blocks, SortedKeys(ks))| == |blocks[x]| + |Join(blocks, SortedKeys(ks - {x}))|
    decreases |ks|
  {
    var m := MinOf(ks);
    if x == m {
      SortedKeysUnfold(ks);
      JoinLengthCons(blocks, m, SortedKeys(ks - {m}));
    } else {
      SortedJoinRemove(blocks, ks - {m}, x);
      SortedJoinRemoveLater(blocks, ks, x);
    }
  }

  /** The step of SortedJoinRemove for a block after the first: the least
      offset stays in front on both sides. */
  lemma SortedJoinRemoveLater(blocks: map<nat, seq<byte>>, ks: set<nat>, x: nat)
    requires x in ks && ks <= blocks.Keys && x != MinOf(ks)
    requires var m := MinOf(ks);
      |Join(blocks, SortedKeys(ks - {m}))| == |blocks[x]| + |Join(blocks, SortedKeys(ks - {m} - {x}))|
    ensures |Join(blocks, SortedKeys(ks))| == |blocks[x]| + |Join(blocks, SortedKeys(ks - {x}))|
  {
    var m := MinOf(ks);
    var rest := ks - {x};
    MinOfWithout(ks, x);
    SortedKeysUnfold(ks);
    JoinLengthCons(blocks, m, SortedKeys(ks - {m}));
    SortedKeysUnfold(rest);
    JoinLengthCons(blocks, m, SortedKeys(rest - {m}));
    RemoveBoth(ks, m, x);
  }

  lemma MinOfWithout(ks: set<nat>, x: nat)
    requires x in ks && x != MinOf(ks)
    ensures ks - {x} != {} && MinOf(ks - {x}) == MinOf(ks)
  {
    assert MinOf(ks) in ks - {x};
  }

  lemma RemoveBoth(ks: set<nat>, m: nat, x: nat)
    ensures ks - {m} - {x} == ks - {x} - {m}
  {
  }

  /** Joining the blocks along any listing of their offsets, each once,
      gives as many bytes as joining them in ascending offset order. */
  lemma {:induction false} JoinLengthAnyOrder(blocks: map<nat, seq<byte>>, keys: seq<nat>, ks: set<nat>)
    requires forall i, j :: 0 <= i < j < |keys| ==> keys[i] != keys[j]
    requires forall k :: k in keys <==> k in ks
    requires ks <= blocks.Keys
    ensures |Join(blocks, keys)| == |Join(blocks, SortedKeys(ks))|
    decreases |keys|
  {
    if keys == [] {
      assert forall k :: k !in ks;
    } else {
      var x := keys[0];
      var tail := keys[1..];
      forall k ensures k in tail <==> k in ks - {x} {
        if k in tail {
          var j :| 0 <= j < |tail| && tail[j] == k;
          assert keys[j + 1] == k && keys[0] != keys[j + 1];
        }
        if k in ks - {x} {
          var j :| 0 <= j < |keys| && keys[j] == k;
          assert j != 0 && tail[j - 1] == k;
        }
      }
      JoinLengthAnyOrder(blocks, tail, ks - {x});
      SortedJoinRemove(blocks, ks, x);
    }
  }

  /** `sum(len(block) for block in blocks.values())` does not depend on the
      order the dictionary lists its blocks in: any listing of the buffered
      offsets, each once, gives the buffered length. */
  lemma BufferedLengthAnyOrder(blocks: map<nat, seq<byte>>, keys: seq<nat>)
    requires forall i, j :: 0 <= i < j < |keys| ==> keys[i] != keys[j]
    requires forall k :: k in keys <==> k in blocks
    ensures BufferedLength(blocks) == |Join(blocks, keys)|
  {
    JoinLengthAnyOrder(blocks, keys, blocks.Keys);
  }

  // ---------------------------------------------------------------------------
  // Tiling

  /** The spans cover the bytes from `from` up to `size` one after the other, none empty. */
  ghost predicate Tiles(p: seq<Span>, from: nat, size: nat)
    decreases |p|
  {
    if p == [] then from == size
    else p[0].offset == from && p[0].length > 0 && Tiles(p[1..], from + p[0].length, size)
  }

  lemma {:induction false} PlanTiles(size: nat, from: nat)
    requires from <= size
    ensures Tiles(PlanFrom(size, from), from, size)
    decreases size - from
  {
    if from < size {
      var p := PlanFrom(size, from);
      if from + BLOCK_SIZE <= size {
        PlanTiles(size, from + BLOCK_SIZE);
      }
      assert p[1..] == PlanFrom(size, from + BLOCK_SIZE);
    }
  }

  function Offsets(p: seq<Span>): (r: seq<nat>)
    ensures |r| == |p| && forall k :: 0 <= k < |p| ==> r[k] == p[k].offset
  {
    if p == [] then [] else [p[0].offset] + Offsets(p[1..])
  }

  /** Every span of a tiling starts inside the tiled range. */
  lemma {:induction false} TilesBounds(p: seq<Span>, from: nat, size: nat)
    requires Tiles(p, from, size)
    ensures from <= size
    ensures forall k :: 0 <= k < |p| ==> from <= p[k].offset < size
    decreases |p|
  {
    if p != [] {
      TilesBounds(p[1..], from + p[0].length, size);
      forall k | 0 < k < |p| ensures from < p[k].offset {
        assert p[k] == p[1..][k - 1];
      }
    }
  }

  lemma {:induction false} TilesIncreasing(p: seq<Span>, from: nat, size: nat)
    requires Tiles(p, from, size)
    ensures Increasing(Offsets(p))
    decreases |p|
  {
    if p != [] {
      var tail := Offsets(p[1..]);
      TilesIncreasing(p[1..], from + p[0].length, size);
      TilesBounds(p[1..], from + p[0].length, size);
      forall k | 0 <= k < |tail| ensures from < tail[k] {
        assert tail[k] == p[1..][k].offset;
      }
      IncreasingCons(from, tail);
      assert Offsets(p) == [from] + tail;
    }
  }

  /** The blocks of `data` cut along the spans `p`, keyed by offset. */
  function BlocksOf(data: seq<byte>, p: seq<Span>): (m: map<nat, seq<byte>>)
    requires forall k :: 0 <= k < |p| ==> p[k].offset + p[k].length <= |data|
    ensures forall x :: x in m <==> x in Offsets(p)
  {
    if p == [] then map[]
    else
      var rest := BlocksOf(data, p[1..]);
      assert Offsets(p) == [p[0].offset] + Offsets(p[1..]);
      rest[p[0].offset := data[p[0].offset .. p[0].offset + p[0].length]]
  }

  /** Each block of `data` cut along a tiling, under its own offset. */
  lemma {:induction false} BlocksOfAt(data: seq<byte>, p: seq<Span>, from: nat, k: nat)
    requires forall i :: 0 <= i < |p| ==> p[i].offset + p[i].length <= |data|
    requires Tiles(p, from, |data|)
    requires k < |p|
    ensures BlocksOf(data, p)[p[k].offset] == data[p[k].offset .. p[k].offset + p[k].length]
    decreases k
  {
    if k > 0 {
      var tail := p[1..];
      assert tail[k - 1] == p[k];
      TilesBounds(tail, from + p[0].length, |data|);
      BlocksOfAt(data, tail, from + p[0].length, k - 1);
    }
  }

  lemma {:induction false} JoinTiles(data: seq<byte>, m: map<nat, seq<byte>>, p: seq<Span>, from: nat)
    requires Tiles(p, from, |data|)
    requires forall k :: 0 <= k < |p| ==> p[k].offset in m && p[k].offset + p[k].length <= |data|
    requires forall k :: 0 <= k < |p| ==> m[p[k].offset] == data[p[k].offset .. p[k].offset + p[k].length]
    ensures from <= |data|
    ensures Join(m, Offsets(p)) == data[from..]
    decreases |p|
  {
    if p != [] {
      assert Offsets(p) == [from] + Offsets(p[1..]);
      JoinTiles(data, m, p[1..], from + p[0].length);
      assert data[from..] == data[from .. from + p[0].length] + data[from + p[0].length..];
    }
  }

  /** The blocks of a piece, cut by the request plan and keyed by offset:
      what a peer that answers every request of the plan has sent. */
  function Split(data: seq<byte>): (m: map<nat, seq<byte>>)
  {
    BlocksOf(data, Plan(|data|))
  }

  /** The blocks tile the piece: cutting a piece by the request plan and
      reassembling the blocks in ascending offset order gives the piece back,
      and the buffered length is the piece length. */
  lemma SplitThenAssemble(data: seq<byte>)
    ensures Assemble(Split(data)) == data
    ensures BufferedLength(Split(data)) == |data|
  {
    var p := Plan(|data|);
    var m := Split(data);
    PlanTiles(|data|, 0);
    TilesIncreasing(p, 0, |data|);
    forall k | 0 <= k < |p|
      ensures p[k].offset in m && m[p[k].offset] == data[p[k].offset .. p[k].offset + p[k].length]
    {
      assert Offsets(p)[k] == p[k].offset;
      BlocksOfAt(data, p, 0, k);
    }
    JoinTiles(data, m, p, 0);
    AssembleInOffsetOrder(m, Offsets(p));
  }
}

=== FILE: bytes.dfy ===
/** Bytes, fixed-width big-endian integers and the small result types shared
    by every other module of the download engine model. */
module Bytes {

  /** One octet of a byte string (Python `bytes` element). */
  type byte = x: int | 0 <= x < 256

  const U16_LIMIT: nat := 0x1_0000
  const U32_LIMIT: nat := 0x1_0000_0000

  /** Values that fit a 4-byte unsigned big-endian field (struct format `!I`). */
  type u32 = x: int | 0 <= x < U32_LIMIT

  /** Values that fit a 2-byte unsigned big-endian field (struct format `!H`). */
  type u16 = x: int | 0 <= x < U16_LIMIT

  /** A value or the absence of one. */
  datatype Option<+T> = None | Some(value: T)

  /** The exceptions the source raises, by kind; the model keeps only the kind. */
  datatype Error =
    | IndexError         // sequence or bit-array index out of range
    | KeyError           // missing dictionary key or set element
    | TypeError          // a value of the wrong kind (TypeError or AttributeError)
    | StructError        // struct.unpack on a buffer of the wrong size
    | ValueError(what: string)  // an explicit `raise ValueError(...)`

  /** A value or the exception that replaced it. */
  datatype Result<+T> = Ok(value: T) | Err(error: Error)

  /** `n` zero bytes, as `b"\x00" * n` or `bytearray(n)`. */
  function Zeros(n: nat): (r: seq<byte>)
    ensures |r| == n
    ensures forall i :: 0 <= i < n ==> r[i] == 0
  {
    seq(n, _ => 0)
  }

  /** The 4-byte big-endian encoding of `x` (`x.to_bytes(4, "big")`,
      `struct.pack("!I", x)`); decoding it gives `x` back. */
  function BE32(x: u32): (r: seq<byte>)
    ensures |r| == 4
    ensures ReadBE32(r) == x
  {
    var lo := x % 0x100;
    var y := x / 0x100;
    var mid := y % 0x100;
    var z := y / 0x100;
    [z / 0x100, z % 0x100, mid, lo]
  }

  /** The value of a 4-byte big-endian field (`struct.unpack("!I", b)`). */
  function ReadBE32(b: seq<byte>): (x: u32)
    requires |b| == 4
    ensures x == b[0] as int * 0x100_0000 + b[1] as int * 0x1_0000 + b[2] as int * 0x100 + b[3]
  {
    ((b[0] as int * 0x100 + b[1]) * 0x100 + b[2]) * 0x100 + b[3]
  }

  /** Every 4-byte field is the encoding of the value it is read as. */
  lemma ReadBE32Inverse(b: seq<byte>)
    requires |b| == 4
    ensures BE32(ReadBE32(b)) == b
  {
    var z := b[0] as int * 0x100 + b[1];
    var y := z * 0x100 + b[2];
    var x := y * 0x100 + b[3];
    assert x % 0x100 == b[3] && x / 0x100 == y;
    assert y % 0x100 == b[2] && y / 0x100 == z;
    assert z % 0x100 == b[1] && z / 0x100 == b[0];
  }

  /** The 2-byte big-endian encoding of `x` (`struct.pack("!H", x)`). */
  function BE16(x: u16): (r: seq<byte>)
    ensures |r| == 2
    ensures ReadBE16(r) == x
  {
    [x / 0x100, x % 0x100]
  }

  /** The value of a 2-byte big-endian field (`struct.unpack("!H", b)`). */
  function ReadBE16(b: seq<byte>): (x: u16)
    requires |b| == 2
  {
    b[0] as int * 0x100 + b[1]
  }

  /** Every 2-byte field is the encoding of the value it is read as. */
  lemma ReadBE16Inverse(b: seq<byte>)
    requires |b| == 2
    ensures BE16(ReadBE16(b)) == b
  {
  }

  /** Concatenation of a sequence of byte strings (`b"".join(parts)`). */
  function Concat(parts: seq<seq<byte>>): (r: seq<byte>)
  {
    if parts == [] then [] else parts[0] + Concat(parts[1..])
  }

  /** Sum of a sequence of integers (`sum(xs)`). */
  function Sum(xs: seq<int>): int
  {
    if xs == [] then 0 else xs[0] + Sum(xs[1..])
  }

  lemma {:induction false} ConcatAppend(a: seq<seq<byte>>, b: seq<seq<byte>>)
    ensures Concat(a + b) == Concat(a) + Concat(b)
  {
    if a != [] {
      assert (a + b)[0] == a[0];
      assert (a + b)[1..] == a[1..] + b;
      ConcatAppend(a[1..], b);
      assert a[0] + (Concat(a[1..]) + Concat(b)) == (a[0] + Concat(a[1..])) + Concat(b);
    } else {
      assert a + b == b;
    }
  }

  lemma {:induction false} SumAppend(a: seq<int>, b: seq<int>)
    ensures Sum(a + b) == Sum(a) + Sum(b)
  {
    if a != [] {
      assert (a + b)[0] == a[0];
      assert (a + b)[1..] == a[1..] + b;
      SumAppend(a[1..], b);
    } else {
      assert a + b == b;
    }
  }

  /** `whole` ends with `tail`. */
  predicate IsSuffix<T(==)>(tail: seq<T>, whole: seq<T>)
  {
    |tail| <= |whole| && tail == whole[|whole| - |tail|..]
  }

  /** A suffix of a suffix is a suffix of the whole. */
  lemma SuffixOfSuffix<T>(tail: seq<T>, rest: seq<T>, whole: seq<T>)
    requires IsSuffix(rest, whole) && IsSuffix(tail, rest)
    ensures IsSuffix(tail, whole)
  {
  }

  /** Python's `min` and `max` on two integers. */
  function Min(a: int, b: int): int { if a <= b then a else b }
  function Max(a: int, b: int): int { if a >= b then a else b }

  /** Each byte read as the character with the same code. The source decodes
      byte strings as UTF-8; the model keeps one character per byte. */
  function Text(b: seq<byte>): (s: string)
    ensures |s| == |b|
    ensures forall i :: 0 <= i < |b| ==> s[i] as int == b[i]
  {
    seq(|b|, i requires 0 <= i < |b| => b[i] as char)
  }

  // ---------------------------------------------------------------------------
  // Joining and splitting on a separator

  /** `sep.join(parts)`: the parts with one separator between neighbours. */
  function JoinWith<T>(parts: seq<seq<T>>, sep: T): (r: seq<T>)
  {
    if parts == [] then []
    else if |parts| == 1 then parts[0]
    else parts[0] + [sep] + JoinWith(parts[1..], sep)
  }

  /** Index of the first `x` in `s`, or `|s|` when there is none. */
  function FirstIndexOf<T(==)>(s: seq<T>, x: T): (i: nat)
    ensures i <= |s|
    ensures forall j :: 0 <= j < i ==> s[j] != x
    ensures i < |s| ==> s[i] == x
  {
    if s == [] then 0
    else if s[0] == x then 0
    else 1 + FirstIndexOf(s[1..], x)
  }

  /** The pieces of `s` between separators, empty ones included
      (`s.split(sep)`). */
  function SplitOn<T(==)>(s: seq<T>, sep: T): (r: seq<seq<T>>)
    ensures r != []
    decreases |s|
  {
    var i := FirstIndexOf(s, sep);
    if i == |s| then [s] else [s[..i]] + SplitOn(s[i + 1..], sep)
  }

  /** `x` does not occur in `s`. */
  predicate Avoids<T(==)>(s: seq<T>, x: T)
  {
    forall j :: 0 <= j < |s| ==> s[j] != x
  }

  lemma FirstIndexAfter<T>(c: seq<T>, sep: T, tail: seq<T>)
    requires Avoids(c, sep)
    ensures FirstIndexOf(c + [sep] + tail, sep) == |c|
    ensures FirstIndexOf(c, sep) == |c|
  {
    var s := c + [sep] + tail;
    assert s[|c|] == sep;
    assert forall j :: 0 <= j < |c| ==> s[j] == c[j];
  }

  /** Splitting a join on its separator gives the parts back, provided there
      is at least one part and none contains the separator. */
  lemma {:induction false} SplitJoin<T>(parts: seq<seq<T>>, sep: T)
    requires parts != []
    requires forall k :: 0 <= k < |parts| ==> Avoids(parts[k], sep)
    ensures SplitOn(JoinWith(parts, sep), sep) == parts
  {
    var c := parts[0];
    if |parts| == 1 {
      FirstIndexAfter(c, sep, []);
    } else {
      var tail := JoinWith(parts[1..], sep);
      var s := c + [sep] + tail;
      FirstIndexAfter(c, sep, tail);
      assert s[..|c|] == c;
      assert s[|c| + 1..] == tail;
      SplitJoin(parts[1..], sep);
      assert parts == [c] + parts[1..];
    }
  }

  /** A slice of the tail of a concatenation, at the tail's own offsets. */
  lemma SliceAfter(head: seq<byte>, tail: seq<byte>, i: nat, j: nat)
    requires i <= j <= |tail|
    ensures (head + tail)[|head| + i .. |head| + j] == tail[i .. j]
  {
  }
}

=== FILE: downloader.dfy ===
/** The orchestration-level pieces of the downloader that are pure logic:
    its own, forgiving parse of the tracker response and the cap on the
    number of peers it connects to. The piece store it keeps is the one of
    module PieceStore. */
module Downloader {
  import opened Bytes
  import opened Bencode
  import opened Tracker

  /** Connections opened when the configuration sets no cap. */
  const DEFAULT_MAX_CONNECTIONS: int := 50

  /** `Downloader._parse_tracker_response`: `decoded.get(b'peers', [])`,
      then the same two branches as the tracker's parser, with every
      exception (a failed decode, shown as None, included) caught and
      turned into the empty list. */
  function ParseTrackerResponse(decoded: Option<BValue>): (r: seq<Peer>)
    ensures decoded.None? ==> r == []
    ensures decoded.Some? && !decoded.value.BDict? ==> r == []
    ensures decoded.Some? && decoded.value.BDict? && "peers" !in decoded.value.entries ==> r == []
    ensures decoded.Some? && decoded.value.BDict? && "peers" in decoded.value.entries ==>
      var strict := Tracker.ParseResponse(decoded.value);
      (strict.Ok? ==> r == strict.value) && (strict.Err? ==> r == [])
  {
    match decoded
    case None => []
    case Some(v) =>
      if !v.BDict? then []
      else
        var peers := if "peers" in v.entries then v.entries["peers"] else BList([]);
        var parsed := PeersOf(peers);
        if parsed.Ok? then parsed.value else []
  }

  /** Where the two parsers part ways: a compact string with a trailing
      partial record is an error for the tracker's parser and an empty peer
      list for the downloader's, and so is a missing `peers` key. */
  lemma PartialRecordSwallowed(d: map<string, BValue>, s: seq<byte>)
    requires "peers" in d && d["peers"] == BBytes(s) && |s| % COMPACT_RECORD != 0
    ensures Tracker.ParseResponse(BDict(d)).Err?
    ensures ParseTrackerResponse(Some(BDict(d))) == []
    ensures ParseTrackerResponse(Some(BDict(d - {"peers"}))) == []
    ensures Tracker.ParseResponse(BDict(d - {"peers"})) == Err(KeyError)
  {
  }

  /** The effective cap: `config.get('max_connections', 50)`. */
  function Cap(maxConnections: Option<int>): int
  {
    if maxConnections.Some? then maxConnections.value else DEFAULT_MAX_CONNECTIONS
  }

  /** `connect_to_peers`: peers are taken in tracker order, and the loop
      stops once as many connections are started as the cap allows; the cap
      is checked after each start, so at least one peer is started whenever
      there is one. */
  method ConnectToPeers(peers: seq<Peer>, maxConnections: Option<int>) returns (started: seq<Peer>)
    ensures started == peers[..Min(|peers|, Max(1, Cap(maxConnections)))]
  {
    var cap := Cap(maxConnections);
    started := [];
    var i := 0;
    while i < |peers|
      invariant 0 <= i <= |peers|
      invariant started == peers[..i]
      invariant i == 0 || i < cap
    {
      started := started + [peers[i]];
      i := i + 1;
      if |started| >= cap {
        break;
      }
    }
  }
}

=== FILE: hex.dfy ===
/** Hexadecimal text for digests: the torrent's info hash is carried as the
    lower-case hex digest and turned back into raw bytes with `bytes.fromhex`
    before it goes on the wire or into the tracker query. */
module Hex {
  import opened Bytes

  const DIGITS: string := "0123456789abcdef"

  /** The value of one hex digit, either case; None for any other character. */
  function DigitValue(c: char): (r: Option<int>)
    ensures r.Some? ==> 0 <= r.value < 16
    ensures r.Some? && ('0' <= c <= '9' || 'a' <= c <= 'f') ==> DIGITS[r.value] == c
  {
    if '0' <= c <= '9' then Some(c as int - '0' as int)
    else if 'a' <= c <= 'f' then Some(c as int - 'a' as int + 10)
    else if 'A' <= c <= 'F' then Some(c as int - 'A' as int + 10)
    else None
  }

  /** Lower-case hex text of a byte string (`hashlib...hexdigest()`): two
      digits per byte, high nibble first. */
  function ToHex(b: seq<byte>): (s: string)
    ensures |s| == 2 * |b|
    ensures forall i :: 0 <= i < |b| ==> DigitValue(s[2 * i]) == Some(b[i] / 16)
    ensures forall i :: 0 <= i < |b| ==> DigitValue(s[2 * i + 1]) == Some(b[i] % 16)
  {
    if b == [] then []
    else
      var tail := ToHex(b[1..]);
      var s := [DIGITS[b[0] / 16], DIGITS[b[0] % 16]] + tail;
      assert forall i :: 0 <= i < |b| ==>
        DigitValue(s[2 * i]) == Some(b[i] / 16) && DigitValue(s[2 * i + 1]) == Some(b[i] % 16) by {
        forall i | 0 <= i < |b|
          ensures DigitValue(s[2 * i]) == Some(b[i] / 16) && DigitValue(s[2 * i + 1]) == Some(b[i] % 16)
        {
          if i == 0 {
            DigitOfValue(b[0] / 16);
            DigitOfValue(b[0] % 16);
          } else {
            assert s[2 * i] == tail[2 * (i - 1)] && s[2 * i + 1] == tail[2 * (i - 1) + 1];
            assert b[i] == b[1..][i - 1];
          }
        }
      }
      s
  }

  /** The digit written for a nibble reads back as that nibble. */
  lemma DigitOfValue(x: nat)
    requires x < 16
    ensures DigitValue(DIGITS[x]) == Some(x)
  {
  }

  /** Text `bytes.fromhex` accepts: an even number of hex digits. */
  predicate IsHex(s: string)
  {
    |s| % 2 == 0 && forall i :: 0 <= i < |s| ==> DigitValue(s[i]).Some?
  }

  /** Raw bytes of hex text (`bytes.fromhex`): None, where the source raises
      ValueError, exactly when the text is not an even run of hex digits. */
  function FromHex(s: string): (r: Option<seq<byte>>)
    ensures r.Some? <==> IsHex(s)
    ensures r.Some? ==> 2 * |r.value| == |s|
    decreases |s|
  {
    if s == [] then Some([])
    else if |s| == 1 then None
    else
      var rest := FromHex(s[2..]);
      assert IsHex(s) <==> DigitValue(s[0]).Some? && DigitValue(s[1]).Some? && IsHex(s[2..]) by {
        if DigitValue(s[0]).Some? && DigitValue(s[1]).Some? && IsHex(s[2..]) {
          forall i | 0 <= i < |s| ensures DigitValue(s[i]).Some? {
            if i >= 2 { assert s[i] == s[2..][i - 2]; }
          }
        }
      }
      var hi := DigitValue(s[0]);
      var lo := DigitValue(s[1]);
      if hi.None? || lo.None? || rest.None? then None
      else Some([hi.value * 16 + lo.value] + rest.value)
  }

  /** Decoding the hex digest of a byte string gives the byte string back. */
  lemma {:induction false} FromHexToHex(b: seq<byte>)
    ensures FromHex(ToHex(b)) == Some(b)
  {
    if b != [] {
      var s := ToHex(b);
      assert s[2..] == ToHex(b[1..]);
      FromHexToHex(b[1..]);
      assert DigitValue(s[0]) == Some(b[0] / 16) && DigitValue(s[1]) == Some(b[0] % 16);
      FromHexCons(s);
      assert b == [b[0] / 16 * 16 + b[0] % 16] + b[1..];
    }
  }

  /** Two leading digits and a decodable rest decode to one more byte. */
  lemma FromHexCons(s: string)
    requires |s| >= 2 && DigitValue(s[0]).Some? && DigitValue(s[1]).Some? && FromHex(s[2..]).Some?
    ensures FromHex(s) == Some([DigitValue(s[0]).value * 16 + DigitValue(s[1]).value] + FromHex(s[2..]).value)
  {
  }
}

=== FILE: peer.dfy ===
/** The first, simpler peer connection of the engine: it keeps only the
    choked flag and the last bitfield received, asks for one whole piece at a
    time (offset 0, the nominal piece length), and hands a `piece` message
    that starts at offset 0 straight to the downloader's hash check and
    piece store. */
module LegacyPeer {
  import opened Bytes
  import opened Wire
  import Bitfield
  import PieceStore
  import Hex

  /** What the connection reads from its downloader: the piece hashes of
      the torrent (their number is `total_pieces`) and the piece length. */
  datatype Torrent = Torrent(hashes: seq<seq<byte>>, pieceLength: nat)

  function Count(t: Torrent): nat
  {
    |t.hashes|
  }

  /** The connection's own state: the choked flag and the raw payload of the
      last `bitfield` message (None before the first one). */
  datatype Peer = Peer(choked: bool, bitfield: Option<seq<byte>>)

  /** A new connection: choked, no bitfield. */
  const Initial: Peer := Peer(true, None)

  /** The bitfield takes part in the test: it was received and is not empty
      (Python's truth value of `self.bitfield`). */
  predicate Filtering(p: Peer)
  {
    p.bitfield.Some? && p.bitfield.value != []
  }

  /** Piece `i` counts as available: without a (non-empty) bitfield every
      piece does; with one, bit `7 - i mod 8` of byte `i div 8` must be set.
      The test reads the bitfield the way the newer connection unpacks it,
      most significant bit first. */
  function Available(p: Peer, i: nat): (r: bool)
    ensures !Filtering(p) ==> r
    ensures Filtering(p) && i >= 8 * |p.bitfield.value| ==> !r
    ensures Filtering(p) && i < 8 * |p.bitfield.value| ==>
      var bits := Bitfield.Unpack(p.bitfield.value, 8 * |p.bitfield.value|);
      bits.Ok? && (r <==> bits.value[i])
  {
    !Filtering(p) || (i / 8 < |p.bitfield.value| && Bitfield.HasPiece(p.bitfield.value, i))
  }

  /** A piece the connection would ask for: a real piece, not yet stored,
      available from the peer. */
  predicate Wanted(t: Torrent, p: Peer, downloaded: set<nat>, i: nat)
  {
    i < Count(t) && i !in downloaded && Available(p, i)
  }

  /** The bit test of index `i` reads past the end of the bitfield
      (IndexError). */
  predicate Raises(p: Peer, downloaded: set<nat>, i: nat)
  {
    i !in downloaded && Filtering(p) && i / 8 >= |p.bitfield.value|
  }

  /** The `for` loop of `request_pieces` does not `continue` past index `i`:
      it either raises there or goes on to request it. */
  predicate Stops(p: Peer, downloaded: set<nat>, i: nat)
  {
    i !in downloaded &&
    (!Filtering(p) || i / 8 >= |p.bitfield.value| || Bitfield.HasPiece(p.bitfield.value, i))
  }

  /** Below `total_pieces`, the loop stops at an index without raising
      exactly when the piece is wanted. */
  lemma WantedIsStopWithoutRaise(t: Torrent, p: Peer, downloaded: set<nat>)
    ensures forall j: nat :: j < Count(t) ==>
      (Wanted(t, p, downloaded, j) <==> Stops(p, downloaded, j) && !Raises(p, downloaded, j))
  {
  }

  /** The index at which the loop over `range(i, total_pieces)` stops, or
      `total_pieces` when it runs to the end. */
  function FirstStop(t: Torrent, p: Peer, downloaded: set<nat>, i: nat): (k: nat)
    requires i <= Count(t)
    ensures i <= k <= Count(t)
    ensures forall j :: i <= j < k ==> !Stops(p, downloaded, j)
    ensures k < Count(t) ==> Stops(p, downloaded, k)
    decreases Count(t) - i
  {
    if i == Count(t) || Stops(p, downloaded, i) then i else FirstStop(t, p, downloaded, i + 1)
  }

  /** `send_request(index)`: nothing when choked; otherwise the 17-byte
      request for the whole piece, offset 0 and the nominal piece length.
      StructError when the index or the length does not fit its 4-byte
      field. */
  function SendRequest(choked: bool, index: nat, pieceLength: nat): (r: Result<seq<byte>>)
    ensures choked ==> r == Ok([])
    ensures !choked ==> (r.Ok? <==> index < U32_LIMIT && pieceLength < U32_LIMIT)
    ensures !choked && r.Ok? ==> r.value == RequestMessage(index, 0, pieceLength)
  {
    if choked then Ok([])
    else if index < U32_LIMIT && pieceLength < U32_LIMIT then Ok(RequestMessage(index, 0, pieceLength))
    else Err(StructError)
  }

  /** What a pass of `request_pieces` leaves behind: the bytes written, the
      downloader's `allow_multiple_requests` setting afterwards, and the
      exception that ended the pass, if any. The pass runs as a separate
      task, so that exception reaches no caller. */
  datatype Outcome = Outcome(sent: seq<byte>, allowMultiple: bool, error: Option<Error>)

  /** `request_pieces`: walk the indices upward, skip stored pieces and
      pieces the bitfield lacks, and send one request for the first index
      that is left, then stop. The setting `allow_multiple_requests` is
      switched on just before it is tested, so that test never skips. */
  function RequestPieces(t: Torrent, p: Peer, downloaded: set<nat>, allowMultiple: bool): (r: Outcome)
    ensures |r.sent| == 0 || |r.sent| == 17
    ensures p.choked ==> r.sent == []
    ensures r.error == Some(IndexError) <==>
      (var k := FirstStop(t, p, downloaded, 0); k < Count(t) && Raises(p, downloaded, k))
    ensures r.sent != [] ==>
      var k := FirstStop(t, p, downloaded, 0);
      k < U32_LIMIT && t.pieceLength < U32_LIMIT && r.sent == RequestMessage(k, 0, t.pieceLength) &&
      Wanted(t, p, downloaded, k) && forall j :: 0 <= j < k ==> !Wanted(t, p, downloaded, j)
    ensures r.error.None? && r.sent == [] && !p.choked ==>
      forall j :: 0 <= j < Count(t) ==> !Wanted(t, p, downloaded, j)
    ensures r.allowMultiple <==>
      allowMultiple || (var k := FirstStop(t, p, downloaded, 0); k < Count(t) && !Raises(p, downloaded, k))
    ensures var k := FirstStop(t, p, downloaded, 0);
      !p.choked && k < Count(t) && !Raises(p, downloaded, k) && k < U32_LIMIT && t.pieceLength < U32_LIMIT ==>
        r.sent == RequestMessage(k, 0, t.pieceLength) && r.error.None?
    ensures var k := FirstStop(t, p, downloaded, 0);
      !p.choked && k < Count(t) && !Raises(p, downloaded, k) && !(k < U32_LIMIT && t.pieceLength < U32_LIMIT) ==>
        r.sent == [] && r.error == Some(StructError)
    ensures var k := FirstStop(t, p, downloaded, 0);
      p.choked && k < Count(t) && !Raises(p, downloaded, k) ==> r.sent == [] && r.error.None?
  {
    var k := FirstStop(t, p, downloaded, 0);
    WantedIsStopWithoutRaise(t, p, downloaded);
    if k == Count(t) then Outcome([], allowMultiple, None)
    else if Raises(p, downloaded, k) then Outcome([], allowMultiple, Some(IndexError))
    else
      match SendRequest(p.choked, k, t.pieceLength)
      case Ok(bytes) => Outcome(bytes, true, None)
      case Err(e) => Outcome([], true, Some(e))
  }

  /** The request sent reads back as a `request` frame for the lowest wanted
      piece, at offset 0, for the nominal piece length, and nothing follows
      it. */
  lemma RequestReadsBack(t: Torrent, p: Peer, downloaded: set<nat>, allowMultiple: bool)
    requires RequestPieces(t, p, downloaded, allowMultiple).sent != []
    ensures var r := ReadFrame(RequestPieces(t, p, downloaded, allowMultiple).sent);
      var k := FirstStop(t, p, downloaded, 0);
      r.Read? && r.rest == [] && r.frame.Message? && r.frame.id == REQUEST &&
      k < U32_LIMIT && t.pieceLength < U32_LIMIT &&
      ParseRequest(r.frame.payload) == Some(BlockRequest(k, 0, t.pieceLength))
  {
    var k := FirstStop(t, p, downloaded, 0);
    var m := RequestMessage(k, 0, t.pieceLength);
    RequestMessageReadsBack(k, 0, t.pieceLength, []);
    assert m + [] == m;
  }

  /** With no bitfield yet, an unchoked connection asks for the lowest piece
      not stored, whatever the peer has. */
  lemma NoBitfieldAsksLowestMissing(t: Torrent, downloaded: set<nat>, allowMultiple: bool, i: nat)
    requires i < Count(t) && i !in downloaded && i < U32_LIMIT && t.pieceLength < U32_LIMIT
    requires forall j :: 0 <= j < i ==> j in downloaded
    ensures RequestPieces(t, Peer(false, None), downloaded, allowMultiple).sent == RequestMessage(i, 0, t.pieceLength)
  {
    var k := FirstStop(t, Peer(false, None), downloaded, 0);
    assert Stops(Peer(false, None), downloaded, i);
    assert k == i;
  }

  // ---------------------------------------------------------------------------
  // Messages

  /** The effect of one message: the connection, the piece store, the
      downloader's `allow_multiple_requests` setting, the bytes written, and
      whether the read loop goes on (an exception ends it). */
  datatype Step = Step(peer: Peer, store: PieceStore.Store, allowMultiple: bool, sent: seq<byte>, alive: bool)

  /** A pass of `request_pieces` started after a state change; its task is
      taken to run to completion before the next message is read. */
  function Then(t: Torrent, p: Peer, store: PieceStore.Store, allowMultiple: bool): (r: Step)
    ensures r.alive && r.peer == p && r.store == store
    ensures var o := RequestPieces(t, p, store.downloaded, allowMultiple);
      r.sent == o.sent && r.allowMultiple == o.allowMultiple
  {
    var o := RequestPieces(t, p, store.downloaded, allowMultiple);
    Step(p, store, o.allowMultiple, o.sent, true)
  }

  /** A `piece` message: a payload shorter than the two 4-byte fields
      raises; a block at an offset other than 0 is dropped; a block at
      offset 0 is taken as the whole piece, checked against its hash
      (IndexError past the hash list) and, when it matches, added to the
      store. */
  function HandlePiece(H: PieceStore.Hash, t: Torrent, p: Peer, store: PieceStore.Store,
                       allowMultiple: bool, payload: seq<byte>): (r: Step)
    ensures r.peer == p && r.allowMultiple == allowMultiple && r.sent == []
    ensures |payload| < 8 ==> !r.alive && r.store == store
    ensures |payload| >= 8 ==>
      var b := ParsePiece(payload).value;
      (b.begin != 0 ==> r.alive && r.store == store) &&
      (b.begin == 0 && b.index >= Count(t) ==> !r.alive && r.store == store) &&
      (b.begin == 0 && b.index < Count(t) && H(b.data) != t.hashes[b.index] ==> r.alive && r.store == store) &&
      (b.begin == 0 && b.index < Count(t) && H(b.data) == t.hashes[b.index] ==>
        r.alive && r.store == PieceStore.AddPiece(store, t.pieceLength, b.index, b.data))
  {
    match ParsePiece(payload)
    case Err(_) => Step(p, store, allowMultiple, [], false)
    case Ok(Block(index, begin, data)) =>
      if begin != 0 then Step(p, store, allowMultiple, [], true)
      else
        match PieceStore.ValidatePiece(H, t.hashes, index, data)
        case Err(_) => Step(p, store, allowMultiple, [], false)
        case Ok(valid) =>
          if valid then Step(p, PieceStore.AddPiece(store, t.pieceLength, index, data), allowMultiple, [], true)
          else Step(p, store, allowMultiple, [], true)
  }

  /** `handle_message`: `choke` and `unchoke` set the flag (unchoke then
      starts a request pass); `have` only decodes its index (StructError
      unless 4 bytes); `bitfield` keeps the payload as it is and starts a
      request pass; `piece` goes to HandlePiece; other ids are ignored. */
  function HandleMessage(H: PieceStore.Hash, t: Torrent, p: Peer, store: PieceStore.Store,
                         allowMultiple: bool, id: byte, payload: seq<byte>): (r: Step)
    ensures id == CHOKE ==> r == Step(p.(choked := true), store, allowMultiple, [], true)
    ensures id == UNCHOKE ==> r.alive && r.peer == p.(choked := false) && r.store == store
    ensures id == HAVE ==> r.peer == p && r.store == store && r.sent == [] && (r.alive <==> |payload| == 4)
    ensures id == BITFIELD ==> r.alive && r.peer == p.(bitfield := Some(payload)) && r.store == store
    ensures id == UNCHOKE ==> r == Then(t, p.(choked := false), store, allowMultiple)
    ensures id == BITFIELD ==> r == Then(t, p.(bitfield := Some(payload)), store, allowMultiple)
    ensures id == PIECE ==> r == HandlePiece(H, t, p, store, allowMultiple, payload)
    ensures id != PIECE ==> r.store == store
    ensures id !in {CHOKE, UNCHOKE, HAVE, BITFIELD, PIECE} ==> r == Step(p, store, allowMultiple, [], true)
  {
    if id == CHOKE then Step(p.(choked := true), store, allowMultiple, [], true)
    else if id == UNCHOKE then Then(t, p.(choked := false), store, allowMultiple)
    else if id == HAVE then
      match ParseHave(payload)
      case Err(_) => Step(p, store, allowMultiple, [], false)
      case Ok(_) => Step(p, store, allowMultiple, [], true)
    else if id == BITFIELD then Then(t, p.(bitfield := Some(payload)), store, allowMultiple)
    else if id == PIECE then HandlePiece(H, t, p, store, allowMultiple, payload)
    else Step(p, store, allowMultiple, [], true)
  }

  /** What the store holds at any time: only real pieces are recorded as
      stored. */
  predicate Inv(t: Torrent, store: PieceStore.Store)
  {
    forall i :: i in store.downloaded ==> i < Count(t)
  }

  /** A message keeps the store invariant, and a piece joins the store only
      when its data matches its hash. */
  lemma HandleMessageKeepsInv(H: PieceStore.Hash, t: Torrent, p: Peer, store: PieceStore.Store,
                              allowMultiple: bool, id: byte, payload: seq<byte>)
    requires Inv(t, store)
    ensures var r := HandleMessage(H, t, p, store, allowMultiple, id, payload);
      Inv(t, r.store) && store.downloaded <= r.store.downloaded &&
      forall i :: i in r.store.downloaded && i !in store.downloaded ==>
        id == PIECE && |payload| >= 8 && ParsePiece(payload).value.begin == 0 &&
        ParsePiece(payload).value.index == i && H(ParsePiece(payload).value.data) == t.hashes[i]
  {
  }

  // ---------------------------------------------------------------------------
  // The read loop

  /** Where a run of the read loop ended. */
  datatype Run = Run(peer: Peer, store: PieceStore.Store, allowMultiple: bool, sent: seq<byte>, unread: seq<byte>)

  /** `listen`: read a frame and handle it, over and over. The loop ends on
      a short read, on a length of 0 and on any exception a handler raises.
      Unlike the newer connection it has no bound on the pieces stored. */
  function Listen(H: PieceStore.Hash, t: Torrent, p: Peer, store: PieceStore.Store,
                  allowMultiple: bool, stream: seq<byte>): (r: Run)
    ensures |stream| < 4 ==> r == Run(p, store, allowMultiple, [], stream)
    decreases |stream|
  {
    var next := ReadFrame(stream);
    if next.Incomplete? then Run(p, store, allowMultiple, [], stream)
    else if next.frame.KeepAlive? then Run(p, store, allowMultiple, [], next.rest)
    else
      var st := HandleMessage(H, t, p, store, allowMultiple, next.frame.id, next.frame.payload);
      if !st.alive then Run(st.peer, st.store, st.allowMultiple, st.sent, next.rest)
      else
        var more := Listen(H, t, st.peer, st.store, st.allowMultiple, next.rest);
        Run(more.peer, more.store, more.allowMultiple, st.sent + more.sent, more.unread)
  }

  /** A length of 0 ends the read loop: nothing changes and the rest of the
      stream is left unread. */
  lemma KeepAliveEndsListen(H: PieceStore.Hash, t: Torrent, p: Peer, store: PieceStore.Store,
                            allowMultiple: bool, rest: seq<byte>)
    ensures Listen(H, t, p, store, allowMultiple, EncodeFrame(KeepAlive) + rest)
         == Run(p, store, allowMultiple, [], rest)
  {
    EncodedFrameReadsBack(KeepAlive, rest);
  }

  /** What the read loop leaves unread is a suffix of the stream. */
  lemma {:induction false} ListenLeavesSuffix(H: PieceStore.Hash, t: Torrent, p: Peer, store: PieceStore.Store,
                                              allowMultiple: bool, stream: seq<byte>)
    ensures IsSuffix(Listen(H, t, p, store, allowMultiple, stream).unread, stream)
    decreases |stream|
  {
    var next := ReadFrame(stream);
    if next.Read? && next.frame.Message? {
      var st := HandleMessage(H, t, p, store, allowMultiple, next.frame.id, next.frame.payload);
      if st.alive {
        var more := Listen(H, t, st.peer, st.store, st.allowMultiple, next.rest);
        ListenLeavesSuffix(H, t, st.peer, st.store, st.allowMultiple, next.rest);
        SuffixOfSuffix(more.unread, next.rest, stream);
      }
    }
  }

  /** The read loop keeps the store invariant and only ever adds pieces. */
  lemma {:induction false} ListenKeepsInv(H: PieceStore.Hash, t: Torrent, p: Peer, store: PieceStore.Store,
                                          allowMultiple: bool, stream: seq<byte>)
    requires Inv(t, store)
    ensures var r := Listen(H, t, p, store, allowMultiple, stream);
      Inv(t, r.store) && store.downloaded <= r.store.downloaded
    decreases |stream|
  {
    var next := ReadFrame(stream);
    if next.Read? && next.frame.Message? {
      HandleMessageKeepsInv(H, t, p, store, allowMultiple, next.frame.id, next.frame.payload);
      var st := HandleMessage(H, t, p, store, allowMultiple, next.frame.id, next.frame.payload);
      if st.alive {
        ListenKeepsInv(H, t, st.peer, st.store, st.allowMultiple, next.rest);
      }
    }
  }

  // ---------------------------------------------------------------------------
  // A whole connection

  /** `connect` after the TCP connection is open: the handshake is packed
      (the info hash turned from hex into raw bytes first; malformed hex
      raises and nothing is written), a 68-byte reply is read and not
      checked, and the read loop runs on what follows. A reply cut short
      ends the connection. */
  function Connect(H: PieceStore.Hash, t: Torrent, store: PieceStore.Store, allowMultiple: bool,
                   infoHashHex: string, peerId: seq<byte>, incoming: seq<byte>): (r: Run)
    ensures !Hex.IsHex(infoHashHex) ==> r == Run(Initial, store, allowMultiple, [], incoming)
    ensures Hex.IsHex(infoHashHex) ==>
      var hs := PackedHandshake(Hex.FromHex(infoHashHex).value, peerId);
      |r.sent| >= HANDSHAKE_LENGTH && r.sent[..HANDSHAKE_LENGTH] == hs &&
      (|incoming| < HANDSHAKE_LENGTH ==> r == Run(Initial, store, allowMultiple, hs, incoming)) &&
      (|incoming| >= HANDSHAKE_LENGTH ==>
        var run := Listen(H, t, Initial, store, allowMultiple, incoming[HANDSHAKE_LENGTH..]);
        r == Run(run.peer, run.store, run.allowMultiple, hs + run.sent, run.unread))
  {
    match Hex.FromHex(infoHashHex)
    case None => Run(Initial, store, allowMultiple, [], incoming)
    case Some(infoHash) =>
      var hs := PackedHandshake(infoHash, peerId);
      match ReadExactly(incoming, HANDSHAKE_LENGTH)
      case None => Run(Initial, store, allowMultiple, hs, incoming)
      case Some((_, rest)) =>
        var run := Listen(H, t, Initial, store, allowMultiple, rest);
        assert (hs + run.sent)[..HANDSHAKE_LENGTH] == hs;
        Run(run.peer, run.store, run.allowMultiple, hs + run.sent, run.unread)
  }

  /** With the hex digest of a 20-byte info hash, the handshake written is
      the 68-byte handshake carrying the raw info hash and the peer id fitted
      to 20 bytes, and the reply consumed is 68 bytes. */
  lemma ConnectHandshake(H: PieceStore.Hash, t: Torrent, store: PieceStore.Store, allowMultiple: bool,
                         infoHash: seq<byte>, peerId: seq<byte>, incoming: seq<byte>)
    requires |infoHash| == 20
    ensures var r := Connect(H, t, store, allowMultiple, Hex.ToHex(infoHash), peerId, incoming);
      |r.sent| >= HANDSHAKE_LENGTH &&
      ParseHandshake(r.sent[..HANDSHAKE_LENGTH]) == Some(HandshakeFields(infoHash, Fit(peerId, 20))) &&
      (|incoming| >= HANDSHAKE_LENGTH ==> |r.unread| <= |incoming| - HANDSHAKE_LENGTH)
  {
    Hex.FromHexToHex(infoHash);
    assert Fit(infoHash, 20) == infoHash;
    if |incoming| >= HANDSHAKE_LENGTH {
      ListenLeavesSuffix(H, t, Initial, store, allowMultiple, incoming[HANDSHAKE_LENGTH..]);
    }
  }
}

=== FILE: session.dfy ===
/** The per-peer session of the download engine (`PeerConnection`): the
    choked flag, the availability bit-set, the requested, downloaded and
    in-progress pieces with their block buffers, and one transition per
    received message. Block scheduling keeps the number of outstanding
    pieces under a ceiling; piece reassembly joins blocks in ascending
    offset order and hands verified pieces to the piece store. */
module Session {
  import opened Bytes
  import opened Wire
  import opened Bitfield
  import opened Blocks
  import PieceStore
  import Hex

  /** What a connection knows of its torrent and its configuration: the
      nominal piece length, the total size, the piece hashes (one per
      piece, so their number is the piece count) and the request ceiling. */
  datatype Context = Context(pieceLength: nat, size: nat, hashes: seq<seq<byte>>, limit: nat)

  /** `pieces_count`. */
  function Count(ctx: Context): nat
  {
    |ctx.hashes|
  }

  /** A usable context: a positive piece length, a ceiling of at least one,
      and every index, offset and length of a request fitting its 4-byte
      field. */
  predicate ValidContext(ctx: Context)
  {
    0 < ctx.pieceLength < U32_LIMIT && Count(ctx) <= U32_LIMIT && ctx.limit >= 1
  }

  /** The request ceiling, `max(1, max_requests)`. */
  function Limit(maxRequests: int): (n: nat)
    ensures n >= 1 && n >= maxRequests
    ensures n == 1 || n == maxRequests
  {
    Max(1, maxRequests)
  }

  /** The state of one connection. */
  datatype PeerSession = PeerSession(
    choked: bool,
    available: seq<bool>,
    requested: set<nat>,
    downloaded: set<nat>,
    inProgress: map<nat, map<nat, seq<byte>>>)

  /** A new connection: choked, nothing available, requested or stored. */
  function Initial(ctx: Context): (s: PeerSession)
    ensures s.choked && |s.available| == Count(ctx)
    ensures forall i :: 0 <= i < Count(ctx) ==> !s.available[i]
    ensures s.requested == {} && s.downloaded == {} && s.inProgress == map[]
  {
    PeerSession(true, seq(Count(ctx), _ => false), {}, {}, map[])
  }

  // ---------------------------------------------------------------------------
  // Requests

  /** The size of piece `i` as requested: the nominal piece length, except
      for the last index, which gets `size % piece_length`. When the size
      is an exact multiple of the piece length, that is 0. */
  function PieceSize(ctx: Context, i: nat): (n: nat)
    requires ctx.pieceLength > 0
    ensures n <= ctx.pieceLength
    ensures i + 1 != Count(ctx) ==> n == ctx.pieceLength
    ensures i + 1 == Count(ctx) ==> n == ctx.size % ctx.pieceLength
  {
    if i + 1 == Count(ctx) then ctx.size % ctx.pieceLength else ctx.pieceLength
  }

  /** The request messages for the blocks `plan` of piece `index`, in order. */
  function BlockRequests(index: u32, plan: seq<Span>): (r: seq<byte>)
    requires forall k :: 0 <= k < |plan| ==> plan[k].offset < U32_LIMIT && plan[k].length < U32_LIMIT
    ensures |r| == 17 * |plan|
  {
    if plan == [] then []
    else RequestMessage(index, plan[0].offset, plan[0].length) + BlockRequests(index, plan[1..])
  }

  /** `_request_piece(i)`'s output: one request per block of the plan of
      the piece's size, 2^14 bytes each but the last. */
  function PieceRequests(ctx: Context, i: nat): (r: seq<byte>)
    requires ValidContext(ctx) && i < Count(ctx)
    ensures |r| == 17 * |Plan(PieceSize(ctx, i))|
  {
    BlockRequests(i, Plan(PieceSize(ctx, i)))
  }

  /** The requests read back from a byte stream made only of request
      frames; None when anything else is met. */
  function ReadRequests(stream: seq<byte>): (r: Option<seq<BlockRequest>>)
    decreases |stream|
  {
    if stream == [] then Some([])
    else
      match ReadFrame(stream)
      case Incomplete => None
      case Read(f, rest) =>
        if !f.Message? || f.id != REQUEST || ParseRequest(f.payload).None? then None
        else
          match ReadRequests(rest)
          case None => None
          case Some(more) => Some([ParseRequest(f.payload).value] + more)
  }

  /** What a peer reads from the requests for a plan: one request per
      block, for this piece, at the block's offset and of its length. */
  lemma {:induction false} BlockRequestsReadBack(index: u32, plan: seq<Span>)
    requires forall k :: 0 <= k < |plan| ==> plan[k].offset < U32_LIMIT && plan[k].length < U32_LIMIT
    ensures var r := ReadRequests(BlockRequests(index, plan));
      r.Some? && |r.value| == |plan| &&
      forall k :: 0 <= k < |plan| ==> r.value[k] == BlockRequest(index, plan[k].offset, plan[k].length)
  {
    if plan != [] {
      var rest := BlockRequests(index, plan[1..]);
      ReadRequestsCons(index, plan[0].offset, plan[0].length, rest);
      BlockRequestsReadBack(index, plan[1..]);
    }
  }

  /** A request message in front of a stream reads back as that request in
      front of what the stream reads back as. */
  lemma ReadRequestsCons(index: u32, begin: u32, length: u32, rest: seq<byte>)
    ensures var more := ReadRequests(rest);
      ReadRequests(RequestMessage(index, begin, length) + rest)
        == if more.None? then None else Some([BlockRequest(index, begin, length)] + more.value)
  {
    RequestMessageReadsBack(index, begin, length, rest);
    assert RequestMessage(index, begin, length) + rest != [];
  }

  /** The requests sent for a piece cover it: read back, they ask for the
      blocks from `k * 2^14` up to `min((k + 1) * 2^14, size)` of that piece, in order,
      and their lengths add up to the piece's size. */
  lemma PieceRequestsCoverPiece(ctx: Context, i: nat)
    requires ValidContext(ctx) && i < Count(ctx)
    ensures var r := ReadRequests(PieceRequests(ctx, i));
      var plan := Plan(PieceSize(ctx, i));
      r.Some? && |r.value| == |plan| && Sum(Lengths(plan)) == PieceSize(ctx, i) &&
      forall k :: 0 <= k < |plan| ==>
        r.value[k] == BlockRequest(i, k * BLOCK_SIZE, Min(BLOCK_SIZE, PieceSize(ctx, i) - k * BLOCK_SIZE))
  {
    BlockRequestsReadBack(i, Plan(PieceSize(ctx, i)));
  }

  /** When the total size is an exact multiple of the piece length, the
      last piece is requested with size 0: no request goes out for it. */
  lemma ExactMultipleLastPieceUnrequested(ctx: Context)
    requires ValidContext(ctx) && Count(ctx) > 0 && ctx.size % ctx.pieceLength == 0
    ensures PieceSize(ctx, Count(ctx) - 1) == 0
    ensures PieceRequests(ctx, Count(ctx) - 1) == []
  {
  }

  /** Piece `i` may be requested: the peer has it and it is neither
      outstanding nor stored. */
  predicate Eligible(s: PeerSession, i: nat)
  {
    i < |s.available| && s.available[i] && i !in s.requested && i !in s.downloaded
  }

  /** The requests for the picked pieces, one piece after the other. */
  function SentFor(ctx: Context, picks: seq<nat>): seq<byte>
    requires ValidContext(ctx)
    requires forall k :: 0 <= k < |picks| ==> picks[k] < Count(ctx)
  {
    if picks == [] then [] else PieceRequests(ctx, picks[0]) + SentFor(ctx, picks[1..])
  }

  /** What the scheduling loop did: the new session and the pieces picked,
      in the order they were requested. */
  datatype Pass = Pass(session: PeerSession, picks: seq<nat>)

  /** What one scheduling pass did: the new session, the bytes sent and the
      pieces picked. The requests for a piece go out as it is picked, so
      the bytes sent are the requests of the picks in pick order. */
  datatype Schedule = Schedule(session: PeerSession, sent: seq<byte>, picks: seq<nat>)

  /** `_request_piece(i)` followed by `requested.add(i)` on the state: an
      empty buffer for the piece, and the piece outstanding. */
  function StartPiece(s: PeerSession, i: nat): (r: PeerSession)
    ensures r.choked == s.choked && r.available == s.available && r.downloaded == s.downloaded
    ensures r.requested == s.requested + {i}
    ensures r.inProgress == s.inProgress[i := map[]]
  {
    s.(requested := s.requested + {i}, inProgress := s.inProgress[i := map[]])
  }

  /** The scheduling loop from index `i` on, while below the ceiling: each
      eligible piece is requested and marked outstanding, and the loop
      stops as soon as the ceiling is reached. The picks ascend, each was
      eligible when the pass began, they are exactly the pieces that became
      outstanding, and the ceiling holds afterwards. */
  function ScheduleFrom(ctx: Context, s: PeerSession, i: nat): (r: Pass)
    requires ValidContext(ctx)
    requires |s.requested| < ctx.limit
    ensures r.session.choked == s.choked && r.session.available == s.available
    ensures r.session.downloaded == s.downloaded
    ensures forall j :: j in r.session.requested <==> j in s.requested || j in r.picks
    ensures |r.session.requested| == |s.requested| + |r.picks| <= ctx.limit
    decreases Count(ctx) - i
  {
    if i >= Count(ctx) then Pass(s, [])
    else if !Eligible(s, i) then ScheduleFrom(ctx, s, i + 1)
    else
      var s1 := StartPiece(s, i);
      if |s1.requested| >= ctx.limit then Pass(s1, [i])
      else
        var rest := ScheduleFrom(ctx, s1, i + 1);
        PickFirst(ctx, s, i, []);
        Pass(rest.session, [i] + rest.picks)
  }

  /** The step that puts an eligible piece in front of the later picks. */
  lemma PickFirst(ctx: Context, s: PeerSession, i: nat, later: seq<nat>)
    requires Eligible(s, i) && i < Count(ctx) && Increasing(later)
    requires forall k :: 0 <= k < |later| ==> i + 1 <= later[k] < Count(ctx) && Eligible(StartPiece(s, i), later[k])
    ensures Increasing([i] + later)
    ensures forall k :: 0 <= k < |[i] + later| ==> i <= ([i] + later)[k] < Count(ctx) && Eligible(s, ([i] + later)[k])
    ensures |StartPiece(s, i).requested| == |s.requested| + 1
  {
  }

  // The three ways one step of the scheduling loop unfolds.

  lemma ScheduleFromSkip(ctx: Context, s: PeerSession, i: nat)
    requires ValidContext(ctx) && |s.requested| < ctx.limit
    requires i < Count(ctx) && !Eligible(s, i)
    ensures ScheduleFrom(ctx, s, i) == ScheduleFrom(ctx, s, i + 1)
  {
  }

  lemma ScheduleFromStop(ctx: Context, s: PeerSession, i: nat)
    requires ValidContext(ctx) && |s.requested| < ctx.limit
    requires i < Count(ctx) && Eligible(s, i) && |StartPiece(s, i).requested| >= ctx.limit
    ensures ScheduleFrom(ctx, s, i) == Pass(StartPiece(s, i), [i])
    ensures |StartPiece(s, i).requested| == ctx.limit
  {
  }

  lemma ScheduleFromPick(ctx: Context, s: PeerSession, i: nat)
    requires ValidContext(ctx) && |s.requested| < ctx.limit
    requires i < Count(ctx) && Eligible(s, i) && |StartPiece(s, i).requested| < ctx.limit
    ensures var rest := ScheduleFrom(ctx, StartPiece(s, i), i + 1);
      ScheduleFrom(ctx, s, i) == Pass(rest.session, [i] + rest.picks)
  {
  }

  /** The picks ascend, and each was eligible when the pass began. */
  lemma {:induction false} SchedulePicks(ctx: Context, s: PeerSession, i: nat)
    requires ValidContext(ctx) && |s.requested| < ctx.limit
    ensures var r := ScheduleFrom(ctx, s, i);
      Increasing(r.picks) &&
      forall k :: 0 <= k < |r.picks| ==> i <= r.picks[k] < Count(ctx) && Eligible(s, r.picks[k])
    decreases Count(ctx) - i
  {
    if i < Count(ctx) {
      if !Eligible(s, i) {
        ScheduleFromSkip(ctx, s, i);
        SchedulePicks(ctx, s, i + 1);
      } else {
        var s1 := StartPiece(s, i);
        if |s1.requested| < ctx.limit {
          var rest := ScheduleFrom(ctx, s1, i + 1);
          ScheduleFromPick(ctx, s, i);
          SchedulePicks(ctx, s1, i + 1);
          PickFirst(ctx, s, i, rest.picks);
        } else {
          ScheduleFromStop(ctx, s, i);
        }
      }
    }
  }

  /** Each picked piece gets a fresh, empty block buffer; every other
      buffer is kept as it was. */
  lemma {:induction false} ScheduleInProgress(ctx: Context, s: PeerSession, i: nat)
    requires ValidContext(ctx) && |s.requested| < ctx.limit
    ensures var r := ScheduleFrom(ctx, s, i);
      FreshBuffers(s.inProgress, r.session.inProgress, r.picks)
    decreases Count(ctx) - i
  {
    var r := ScheduleFrom(ctx, s, i);
    if i < Count(ctx) {
      if !Eligible(s, i) {
        ScheduleFromSkip(ctx, s, i);
        ScheduleInProgress(ctx, s, i + 1);
      } else {
        var s1 := StartPiece(s, i);
        if |s1.requested| < ctx.limit {
          var rest := ScheduleFrom(ctx, s1, i + 1);
          ScheduleFromPick(ctx, s, i);
          ScheduleInProgress(ctx, s1, i + 1);
          FreshBuffersStep(s, i, rest);
        } else {
          ScheduleFromStop(ctx, s, i);
        }
      }
    }
  }

  /** `after` holds the buffers of `before`, plus a fresh, empty one for
      every pick (replacing any buffer the pick had). */
  ghost predicate FreshBuffers(before: map<nat, map<nat, seq<byte>>>, after: map<nat, map<nat, seq<byte>>>, picks: seq<nat>)
  {
    (forall j :: j in after <==> j in before || j in picks) &&
    forall j :: j in after ==> after[j] == if j in picks then map[] else before[j]
  }

  lemma FreshBuffersStep(s: PeerSession, i: nat, rest: Pass)
    requires FreshBuffers(StartPiece(s, i).inProgress, rest.session.inProgress, rest.picks)
    ensures FreshBuffers(s.inProgress, rest.session.inProgress, [i] + rest.picks)
  {
  }

  /** Lowest index first: an eligible piece at or after `i` is left out only
      when the ceiling has been reached, and then every pick lies below it. */
  lemma {:induction false} ScheduleLowestFirst(ctx: Context, s: PeerSession, i: nat, j: nat)
    requires ValidContext(ctx) && |s.requested| < ctx.limit
    requires i <= j < Count(ctx) && Eligible(s, j) && j !in ScheduleFrom(ctx, s, i).picks
    ensures var r := ScheduleFrom(ctx, s, i);
      |r.session.requested| == ctx.limit && forall k :: 0 <= k < |r.picks| ==> r.picks[k] < j
    decreases Count(ctx) - i
  {
    if !Eligible(s, i) {
      ScheduleFromSkip(ctx, s, i);
      ScheduleLowestFirst(ctx, s, i + 1, j);
    } else {
      var s1 := StartPiece(s, i);
      if |s1.requested| < ctx.limit {
        var rest := ScheduleFrom(ctx, s1, i + 1);
        ScheduleFromPick(ctx, s, i);
        assert j != i && j !in rest.picks && Eligible(s1, j);
        ScheduleLowestFirst(ctx, s1, i + 1, j);
        assert forall k :: 0 <= k < |rest.picks| ==> rest.picks[k] < j;
      } else {
        ScheduleFromStop(ctx, s, i);
      }
    }
  }

  /** `_request_pieces`: nothing at all while choked or at the ceiling,
      otherwise one scheduling pass over every index. */
  function RequestPieces(ctx: Context, s: PeerSession): (r: Schedule)
    requires ValidContext(ctx)
    ensures s.choked || |s.requested| >= ctx.limit ==> r == Schedule(s, [], [])
    ensures !s.choked && |s.requested| < ctx.limit ==>
      var p := ScheduleFrom(ctx, s, 0);
      r.session == p.session && r.picks == p.picks
    ensures forall k :: 0 <= k < |r.picks| ==> r.picks[k] < Count(ctx)
    ensures r.sent == SentFor(ctx, r.picks)
  {
    if s.choked || |s.requested| >= ctx.limit then Schedule(s, [], [])
    else
      var p := ScheduleFrom(ctx, s, 0);
      SchedulePicks(ctx, s, 0);
      Schedule(p.session, SentFor(ctx, p.picks), p.picks)
  }

  /** After a pass that was allowed to run, the ceiling holds and the
      lowest eligible pieces were picked: everything eligible below the
      highest pick was picked too, and if some eligible piece was left out
      the ceiling is reached exactly. */
  lemma RequestPiecesCeiling(ctx: Context, s: PeerSession)
    requires ValidContext(ctx) && !s.choked && |s.requested| < ctx.limit
    ensures var r := RequestPieces(ctx, s);
      |r.session.requested| <= ctx.limit &&
      (forall j: nat :: j < Count(ctx) && Eligible(s, j) && j !in r.picks ==>
         |r.session.requested| == ctx.limit && forall k :: 0 <= k < |r.picks| ==> r.picks[k] < j) &&
      (|r.session.requested| < ctx.limit ==>
         forall j: nat :: j < Count(ctx) && Eligible(s, j) ==> j in r.picks)
  {
    var r := RequestPieces(ctx, s);
    forall j: nat | j < Count(ctx) && Eligible(s, j) && j !in r.picks
      ensures |r.session.requested| == ctx.limit && forall k :: 0 <= k < |r.picks| ==> r.picks[k] < j
    {
      ScheduleLowestFirst(ctx, s, 0, j);
    }
  }

  // ---------------------------------------------------------------------------
  // Blocks and pieces

  /** `in_progress[index][begin] = block`, creating the piece's buffer when
      it has none. */
  function StoreBlock(s: PeerSession, index: nat, begin: nat, data: seq<byte>): (r: PeerSession)
    ensures r.choked == s.choked && r.available == s.available
    ensures r.requested == s.requested && r.downloaded == s.downloaded
    ensures r.inProgress.Keys == s.inProgress.Keys + {index}
    ensures begin in r.inProgress[index] && r.inProgress[index][begin] == data
    ensures r.inProgress[index].Keys == (if index in s.inProgress then s.inProgress[index].Keys else {}) + {begin}
    ensures forall o :: o in r.inProgress[index] && o != begin ==> r.inProgress[index][o] == s.inProgress[index][o]
    ensures forall j :: j in s.inProgress && j != index ==> r.inProgress[j] == s.inProgress[j]
  {
    var blocks: map<nat, seq<byte>> := if index in s.inProgress then s.inProgress[index] else map[];
    s.(inProgress := s.inProgress[index := blocks[begin := data]])
  }

  /** A later block at the same offset replaces the earlier one. */
  lemma StoreBlockReplaces(s: PeerSession, index: nat, begin: nat, first: seq<byte>, second: seq<byte>)
    ensures StoreBlock(StoreBlock(s, index, begin, first), index, begin, second)
         == StoreBlock(s, index, begin, second)
  {
    var a := StoreBlock(StoreBlock(s, index, begin, first), index, begin, second);
    var b := StoreBlock(s, index, begin, second);
    assert a.inProgress[index] == b.inProgress[index];
    assert a.inProgress == b.inProgress;
  }

  /** The piece is complete once its buffered blocks add up to at least
      the nominal piece length. */
  function Complete(ctx: Context, blocks: map<nat, seq<byte>>): (c: bool)
    ensures c <==> |Assemble(blocks)| >= ctx.pieceLength
  {
    BufferedLength(blocks) >= ctx.pieceLength
  }

  /** The last piece, whatever its true size, is requested in blocks that
      add up to `size % piece_length`, below the nominal length: buffering
      every block of it never completes it. */
  lemma ShortFinalPieceNeverCompletes(ctx: Context, data: seq<byte>)
    requires ValidContext(ctx) && Count(ctx) > 0
    requires |data| == PieceSize(ctx, Count(ctx) - 1)
    ensures Assemble(Split(data)) == data
    ensures !Complete(ctx, Split(data))
  {
    SplitThenAssemble(data);
  }

  /** The result of handling one message: the new session and store, the
      bytes written to the peer, and whether the read loop goes on (false
      when the handler raised). */
  datatype Step = Step(session: PeerSession, store: PieceStore.Store, sent: seq<byte>, alive: bool)

  /** The completion branch of `_handle_piece`, up to the scheduling pass:
      the piece is joined in offset order and checked against its hash; a
      good piece goes to the store and joins `downloaded`; either way the
      in-progress entry is deleted and the index leaves `requested`
      (KeyError, ending the loop, when it was not there). An index past the
      hash list raises IndexError before anything changes. */
  function CompletePiece(H: PieceStore.Hash, ctx: Context, s: PeerSession, store: PieceStore.Store, index: nat): (r: Step)
    requires index in s.inProgress
    ensures index >= Count(ctx) ==> r == Step(s, store, [], false)
    ensures index < Count(ctx) ==>
      var piece := Assemble(s.inProgress[index]);
      var valid := H(piece) == ctx.hashes[index];
      r.sent == [] &&
      r.session.inProgress == s.inProgress - {index} &&
      r.session.requested == s.requested - {index} &&
      r.session.downloaded == (if valid then s.downloaded + {index} else s.downloaded) &&
      r.store == (if valid then PieceStore.AddPiece(store, ctx.pieceLength, index, piece) else store) &&
      r.session.choked == s.choked && r.session.available == s.available &&
      (r.alive <==> index in s.requested)
  {
    var piece := Assemble(s.inProgress[index]);
    match PieceStore.ValidatePiece(H, ctx.hashes, index, piece)
    case Err(_) => Step(s, store, [], false)
    case Ok(valid) =>
      var store1 := if valid then PieceStore.AddPiece(store, ctx.pieceLength, index, piece) else store;
      var s1 := s.(downloaded := if valid then s.downloaded + {index} else s.downloaded,
                   inProgress := s.inProgress - {index});
      if index !in s1.requested then Step(s1, store1, [], false)
      else Step(s1.(requested := s1.requested - {index}), store1, [], true)
  }

  /** A scheduling pass as the tail of a handler. */
  function Then(ctx: Context, s: PeerSession, store: PieceStore.Store, sent: seq<byte>): (r: Step)
    requires ValidContext(ctx)
    ensures r.alive && r.store == store
    ensures r.session == RequestPieces(ctx, s).session && r.sent == sent + RequestPieces(ctx, s).sent
  {
    var sched := RequestPieces(ctx, s);
    Step(sched.session, store, sent + sched.sent, true)
  }

  /** `_handle_piece`: the payload's index, offset and block; the block is
      buffered under its offset; once the piece is complete it is
      reassembled and checked, and a scheduling pass follows. A payload
      shorter than 8 bytes raises. */
  function HandlePiece(H: PieceStore.Hash, ctx: Context, s: PeerSession, store: PieceStore.Store, payload: seq<byte>): (r: Step)
    requires ValidContext(ctx)
    ensures |payload| < 8 ==> r == Step(s, store, [], false)
    ensures |payload| >= 8 ==>
      var b := ParsePiece(payload).value;
      var s1 := StoreBlock(s, b.index, b.begin, b.data);
      (!Complete(ctx, s1.inProgress[b.index]) ==> r == Step(s1, store, [], true)) &&
      (Complete(ctx, s1.inProgress[b.index]) ==>
        var c := CompletePiece(H, ctx, s1, store, b.index);
        (!c.alive ==> r == c) && (c.alive ==> r == Then(ctx, c.session, c.store, [])))
  {
    match ParsePiece(payload)
    case Err(_) => Step(s, store, [], false)
    case Ok(Block(index, begin, data)) =>
      var s1 := StoreBlock(s, index, begin, data);
      if !Complete(ctx, s1.inProgress[index]) then Step(s1, store, [], true)
      else
        var c := CompletePiece(H, ctx, s1, store, index);
        if !c.alive then c else Then(ctx, c.session, c.store, [])
  }

  /** `have`: exactly bit `index` becomes set, then a scheduling pass. A
      payload that is not 4 bytes, or an index past the bit-set, raises. */
  function HandleHave(ctx: Context, s: PeerSession, store: PieceStore.Store, payload: seq<byte>): (r: Step)
    requires ValidContext(ctx)
    ensures r.alive <==> |payload| == 4 && ReadBE32(payload) < |s.available|
    ensures !r.alive ==> r == Step(s, store, [], false)
    ensures r.alive ==>
      var index := ReadBE32(payload);
      |r.session.available| == |s.available| && r.session.available[index] &&
      (forall j :: 0 <= j < |s.available| && j != index ==> r.session.available[j] == s.available[j]) &&
      r.session.choked == s.choked &&
      r == Then(ctx, s.(available := SetPiece(s.available, index)), store, [])
  {
    match ParseHave(payload)
    case Err(_) => Step(s, store, [], false)
    case Ok(index) =>
      if index >= |s.available| then Step(s, store, [], false)
      else Then(ctx, s.(available := SetPiece(s.available, index)), store, [])
  }

  /** `bitfield`: the availability becomes the first `pieces_count` bits of
      the payload, most significant bit first, and the interested frame is
      written; no scheduling pass. Too short a payload raises. */
  function HandleBitfield(ctx: Context, s: PeerSession, store: PieceStore.Store, payload: seq<byte>): (r: Step)
    ensures r.alive <==> Count(ctx) <= 8 * |payload|
    ensures !r.alive ==> r == Step(s, store, [], false)
    ensures r.alive ==>
      r.sent == [0, 0, 0, 1, 2] && r.store == store &&
      r.session == s.(available := r.session.available) &&
      |r.session.available| == Count(ctx) &&
      forall i :: 0 <= i < Count(ctx) ==> r.session.available[i] == HasPiece(payload, i)
  {
    match Unpack(payload, Count(ctx))
    case Err(_) => Step(s, store, [], false)
    case Ok(bits) => Step(s.(available := bits), store, InterestedFrame(), true)
  }

  /** `_handle_message`: dispatch on the message id. `choke` and `unchoke`
      set and clear the flag (`unchoke` then schedules); ids the engine
      does not know are ignored. */
  function HandleMessage(H: PieceStore.Hash, ctx: Context, s: PeerSession, store: PieceStore.Store,
                         id: byte, payload: seq<byte>): (r: Step)
    requires ValidContext(ctx)
    ensures id == CHOKE ==> r == Step(s.(choked := true), store, [], true)
    ensures id == UNCHOKE ==> r.alive && !r.session.choked && r.store == store
    ensures id == UNCHOKE ==> r == Then(ctx, s.(choked := false), store, [])
    ensures id == HAVE ==> r == HandleHave(ctx, s, store, payload)
    ensures id == BITFIELD ==> r == HandleBitfield(ctx, s, store, payload)
    ensures id == PIECE ==> r == HandlePiece(H, ctx, s, store, payload)
    ensures id !in {CHOKE, UNCHOKE, HAVE, BITFIELD, PIECE} ==> r == Step(s, store, [], true)
  {
    if id == CHOKE then Step(s.(choked := true), store, [], true)
    else if id == UNCHOKE then Then(ctx, s.(choked := false), store, [])
    else if id == HAVE then HandleHave(ctx, s, store, payload)
    else if id == BITFIELD then HandleBitfield(ctx, s, store, payload)
    else if id == PIECE then HandlePiece(H, ctx, s, store, payload)
    else Step(s, store, [], true)
  }

  // ---------------------------------------------------------------------------
  // The session invariant

  /** What every reachable session satisfies: one availability bit per
      piece; at most `limit` outstanding pieces, each a real piece with an
      in-progress buffer and not yet stored; stored pieces are real pieces
      and are in the piece store. */
  predicate Inv(ctx: Context, s: PeerSession, store: PieceStore.Store)
  {
    |s.available| == Count(ctx) &&
    |s.requested| <= ctx.limit &&
    (forall j :: j in s.requested ==> j < Count(ctx) && j in s.inProgress && j !in s.downloaded) &&
    (forall j :: j in s.downloaded ==> j < Count(ctx)) &&
    s.downloaded <= store.downloaded
  }

  lemma InitialInv(ctx: Context, store: PieceStore.Store)
    ensures Inv(ctx, Initial(ctx), store)
  {
  }

  lemma ScheduleKeepsInv(ctx: Context, s: PeerSession, store: PieceStore.Store)
    requires ValidContext(ctx) && Inv(ctx, s, store)
    ensures Inv(ctx, RequestPieces(ctx, s).session, store)
  {
    var r := RequestPieces(ctx, s);
    if !s.choked && |s.requested| < ctx.limit {
      SchedulePicks(ctx, s, 0);
      ScheduleInProgress(ctx, s, 0);
      forall j | j in r.session.requested
        ensures j < Count(ctx) && j in r.session.inProgress && j !in r.session.downloaded
      {
        assert FreshBuffers(s.inProgress, r.session.inProgress, r.picks);
        if j !in s.requested {
          assert j in r.picks;
          var k :| 0 <= k < |r.picks| && r.picks[k] == j;
        }
      }
    }
  }

  lemma CompletePieceKeepsInv(H: PieceStore.Hash, ctx: Context, s: PeerSession, store: PieceStore.Store, index: nat)
    requires Inv(ctx, s, store) && index in s.inProgress
    ensures Inv(ctx, CompletePiece(H, ctx, s, store, index).session, CompletePiece(H, ctx, s, store, index).store)
  {
  }

  lemma HandlePieceKeepsInv(H: PieceStore.Hash, ctx: Context, s: PeerSession, store: PieceStore.Store, payload: seq<byte>)
    requires ValidContext(ctx) && Inv(ctx, s, store)
    ensures var r := HandlePiece(H, ctx, s, store, payload); Inv(ctx, r.session, r.store)
  {
    if |payload| >= 8 {
      var b := ParsePiece(payload).value;
      var s1 := StoreBlock(s, b.index, b.begin, b.data);
      assert Inv(ctx, s1, store);
      if Complete(ctx, s1.inProgress[b.index]) {
        var c := CompletePiece(H, ctx, s1, store, b.index);
        CompletePieceKeepsInv(H, ctx, s1, store, b.index);
        if c.alive {
          ScheduleKeepsInv(ctx, c.session, c.store);
        }
      }
    }
  }

  /** Every message handler keeps the session invariant, whatever the
      payload and whether or not it raises. */
  lemma HandleMessageKeepsInv(H: PieceStore.Hash, ctx: Context, s: PeerSession, store: PieceStore.Store,
                              id: byte, payload: seq<byte>)
    requires ValidContext(ctx) && Inv(ctx, s, store)
    ensures var r := HandleMessage(H, ctx, s, store, id, payload); Inv(ctx, r.session, r.store)
  {
    if id == UNCHOKE {
      ScheduleKeepsInv(ctx, s.(choked := false), store);
    } else if id == HAVE {
      var r := HandleHave(ctx, s, store, payload);
      if r.alive {
        var index := ReadBE32(payload);
        ScheduleKeepsInv(ctx, s.(available := SetPiece(s.available, index)), store);
      }
    } else if id == PIECE {
      HandlePieceKeepsInv(H, ctx, s, store, payload);
    }
  }

  // ---------------------------------------------------------------------------
  // The read loop

  /** Where a run of the read loop ended: the session, the store, every
      byte written, and the bytes no completed read consumed. */
  datatype Run = Run(session: PeerSession, store: PieceStore.Store, sent: seq<byte>, unread: seq<byte>)

  /** `_listen` over the bytes the peer sends: while fewer pieces are
      downloaded than there are pieces, read one frame and handle it. The
      loop ends on a short read, on a keep-alive (length 0), and on any
      exception a handler raises. */
  function Listen(H: PieceStore.Hash, ctx: Context, s: PeerSession, store: PieceStore.Store, stream: seq<byte>): (r: Run)
    requires ValidContext(ctx)
    ensures |s.downloaded| >= Count(ctx) ==> r == Run(s, store, [], stream)
    decreases |stream|
  {
    if |s.downloaded| >= Count(ctx) then Run(s, store, [], stream)
    else
      var next := ReadFrame(stream);
      if next.Incomplete? then Run(s, store, [], stream)
      else
        var rest := next.rest;
        if next.frame.KeepAlive? then Run(s, store, [], rest)
        else
          var st := HandleMessage(H, ctx, s, store, next.frame.id, next.frame.payload);
          if !st.alive then Run(st.session, st.store, st.sent, rest)
          else
            var more := Listen(H, ctx, st.session, st.store, rest);
            Run(more.session, more.store, st.sent + more.sent, more.unread)
  }

  /** What the read loop leaves unread is a suffix of the stream. */
  lemma {:induction false} ListenLeavesSuffix(H: PieceStore.Hash, ctx: Context, s: PeerSession, store: PieceStore.Store, stream: seq<byte>)
    requires ValidContext(ctx)
    ensures var r := Listen(H, ctx, s, store, stream);
      IsSuffix(r.unread, stream)
    decreases |stream|
  {
    if |s.downloaded| < Count(ctx) {
      var next := ReadFrame(stream);
      if next.Read? && next.frame.Message? {
        var st := HandleMessage(H, ctx, s, store, next.frame.id, next.frame.payload);
        if st.alive {
          var more := Listen(H, ctx, st.session, st.store, next.rest);
          ListenLeavesSuffix(H, ctx, st.session, st.store, next.rest);
          SuffixOfSuffix(more.unread, next.rest, stream);
        }
      }
    }
  }

  /** A keep-alive ends the read loop: nothing changes and the rest of the
      stream is left unread. */
  lemma KeepAliveEndsListen(H: PieceStore.Hash, ctx: Context, s: PeerSession, store: PieceStore.Store, rest: seq<byte>)
    requires ValidContext(ctx) && |s.downloaded| < Count(ctx)
    ensures Listen(H, ctx, s, store, EncodeFrame(KeepAlive) + rest) == Run(s, store, [], rest)
  {
    EncodedFrameReadsBack(KeepAlive, rest);
  }

  /** The read loop keeps the session invariant. */
  lemma {:induction false} ListenKeepsInv(H: PieceStore.Hash, ctx: Context, s: PeerSession, store: PieceStore.Store, stream: seq<byte>)
    requires ValidContext(ctx) && Inv(ctx, s, store)
    ensures var r := Listen(H, ctx, s, store, stream); Inv(ctx, r.session, r.store)
    decreases |stream|
  {
    if |s.downloaded| < Count(ctx) {
      match ReadFrame(stream)
      case Incomplete =>
      case Read(f, rest) =>
        if f.Message? {
          assert stream == EncodeFrame(f) + rest;
          HandleMessageKeepsInv(H, ctx, s, store, f.id, f.payload);
          var st := HandleMessage(H, ctx, s, store, f.id, f.payload);
          if st.alive {
            ListenKeepsInv(H, ctx, st.session, st.store, rest);
          }
        }
    }
  }

  // ---------------------------------------------------------------------------
  // A whole connection

  /** `connect` after the TCP connection is open: the handshake is written
      (the info hash turned from hex into raw bytes first; malformed hex
      raises and nothing is written), a reply of the same length is read
      and not checked, then the read loop runs on what follows. A reply cut
      short ends the connection. */
  function Connect(H: PieceStore.Hash, ctx: Context, store: PieceStore.Store, infoHashHex: string,
                   peerId: seq<byte>, incoming: seq<byte>): (r: Run)
    requires ValidContext(ctx)
    ensures !Hex.IsHex(infoHashHex) ==> r == Run(Initial(ctx), store, [], incoming)
    ensures Hex.IsHex(infoHashHex) ==>
      var hs := Handshake(Hex.FromHex(infoHashHex).value, peerId);
      |r.sent| >= |hs| && r.sent[..|hs|] == hs &&
      (|incoming| < |hs| ==> r == Run(Initial(ctx), store, hs, incoming)) &&
      (|incoming| >= |hs| ==>
        var run := Listen(H, ctx, Initial(ctx), store, incoming[|hs|..]);
        r == Run(run.session, run.store, hs + run.sent, run.unread))
  {
    match Hex.FromHex(infoHashHex)
    case None => Run(Initial(ctx), store, [], incoming)
    case Some(infoHash) =>
      var hs := Handshake(infoHash, peerId);
      match ReadExactly(incoming, |hs|)
      case None => Run(Initial(ctx), store, hs, incoming)
      case Some((_, rest)) =>
        var run := Listen(H, ctx, Initial(ctx), store, rest);
        assert (hs + run.sent)[..|hs|] == hs;
        Run(run.session, run.store, hs + run.sent, run.unread)
  }

  /** With the hex digest of a 20-byte info hash and a 20-byte peer id, the
      handshake written is the 68-byte BEP 3 handshake carrying the raw
      info hash, and the reply read is 68 bytes. */
  lemma ConnectHandshake(H: PieceStore.Hash, ctx: Context, store: PieceStore.Store, infoHash: seq<byte>,
                         peerId: seq<byte>, incoming: seq<byte>)
    requires ValidContext(ctx) && |infoHash| == 20 && |peerId| == 20
    ensures var r := Connect(H, ctx, store, Hex.ToHex(infoHash), peerId, incoming);
      |r.sent| >= HANDSHAKE_LENGTH &&
      ParseHandshake(r.sent[..HANDSHAKE_LENGTH]) == Some(HandshakeFields(infoHash, peerId)) &&
      (|incoming| >= HANDSHAKE_LENGTH ==> |r.unread| <= |incoming| - HANDSHAKE_LENGTH)
  {
    Hex.FromHexToHex(infoHash);
    if |incoming| >= HANDSHAKE_LENGTH {
      ListenLeavesSuffix(H, ctx, Initial(ctx), store, incoming[HANDSHAKE_LENGTH..]);
    }
  }
}

=== FILE: store.dfy ===
/** The piece store behind both downloaders: a flat in-memory buffer of the
    whole content, the set of piece indices already written into it, the
    SHA-1 check of a candidate piece, and the final cut of the buffer into
    the torrent's files. */
module PieceStore {
  import opened Bytes

  /** The flat buffer (`file_data`) and the stored indices (`downloaded_pieces`). */
  datatype Store = Store(buffer: seq<byte>, downloaded: set<nat>)

  /** A fresh store: `bytearray(total_length)`, all zero, nothing stored. */
  function Init(totalLength: nat): (s: Store)
    ensures |s.buffer| == totalLength
    ensures forall i :: 0 <= i < totalLength ==> s.buffer[i] == 0
    ensures s.downloaded == {}
  {
    Store(Zeros(totalLength), {})
  }

  /** Python's `buf[start:end] = data` on a bytearray, for `start <= end`:
      both bounds are clamped to the buffer, the clamped range is replaced by
      `data`, and the buffer grows or shrinks to fit. */
  function SliceAssign(buf: seq<byte>, start: nat, end: nat, data: seq<byte>): (r: seq<byte>)
    requires start <= end
    ensures var lo, hi := Min(start, |buf|), Min(end, |buf|);
      |r| == lo + |data| + (|buf| - hi) &&
      r[..lo] == buf[..lo] && r[lo .. lo + |data|] == data && r[lo + |data|..] == buf[hi..]
  {
    var lo, hi := Min(start, |buf|), Min(end, |buf|);
    buf[..lo] + data + buf[hi..]
  }

  /** `add_piece(index, data)`, one atomic step under the store's lock: an
      index already stored changes nothing; otherwise `data` is written at
      `index * pieceLength` and the index is recorded. Within the buffer
      the write replaces exactly `|data|` bytes and keeps its length. */
  function AddPiece(s: Store, pieceLength: nat, index: nat, data: seq<byte>): (r: Store)
    ensures index in s.downloaded ==> r == s
    ensures r.downloaded == s.downloaded + {index}
    ensures index !in s.downloaded && index * pieceLength + |data| <= |s.buffer| ==>
      var start := index * pieceLength;
      |r.buffer| == |s.buffer| &&
      r.buffer[start .. start + |data|] == data &&
      forall i :: 0 <= i < |s.buffer| && !(start <= i < start + |data|) ==> r.buffer[i] == s.buffer[i]
  {
    if index in s.downloaded then s
    else
      var start := index * pieceLength;
      var buf := SliceAssign(s.buffer, start, start + |data|, data);
      assert start + |data| <= |s.buffer| ==> forall i :: 0 <= i < start ==> buf[i] == buf[..start][i];
      assert start + |data| <= |s.buffer| ==>
        forall i :: start + |data| <= i < |s.buffer| ==> buf[i] == buf[start + |data|..][i - start - |data|];
      Store(buf, s.downloaded + {index})
  }

  /** Adding a piece twice is adding it once: the second call, whatever its
      data, has no observable effect. */
  lemma AddPieceIdempotent(s: Store, pieceLength: nat, index: nat, data: seq<byte>, again: seq<byte>)
    ensures AddPiece(AddPiece(s, pieceLength, index, data), pieceLength, index, again)
         == AddPiece(s, pieceLength, index, data)
  {
  }

  /** The SHA-1 digest of a byte string; SHA-1 itself is not modelled, so
      every property here holds for whatever function is passed as `H`. */
  type Hash = seq<byte> -> seq<byte>

  /** `validate_piece(index, data)`: the digest of `data` equals the recorded
      hash of piece `index`; IndexError for an index past the hash list. */
  function ValidatePiece(H: Hash, hashes: seq<seq<byte>>, index: nat, data: seq<byte>): (r: Result<bool>)
    ensures r.Ok? <==> index < |hashes|
    ensures r == Ok(true) <==> index < |hashes| && H(data) == hashes[index]
  {
    if index < |hashes| then Ok(H(data) == hashes[index]) else Err(IndexError)
  }

  // ---------------------------------------------------------------------------
  // Cutting the buffer into files

  /** One destination file: its path and its length in bytes. */
  datatype FileSlot = FileSlot(path: string, length: nat)

  /** What `save_file` writes to one path. */
  datatype Written = Written(path: string, data: seq<byte>)

  /** Where file `k` starts in the flat buffer: the lengths of the files
      before it, added up. */
  function FileStart(files: seq<FileSlot>, k: nat): nat
    requires k <= |files|
  {
    if k == 0 then 0 else FileStart(files, k - 1) + files[k - 1].length
  }

  /** The bytes of the written files, joined in order. */
  function Joined(w: seq<Written>): seq<byte>
  {
    if w == [] then [] else Joined(w[..|w| - 1]) + w[|w| - 1].data
  }

  /** The bytes of the buffer from `start` up to `start + length`, both ends clamped
      to its length. */
  function Window(buffer: seq<byte>, start: nat, length: nat): seq<byte>
  {
    buffer[Min(start, |buffer|) .. Min(start + length, |buffer|)]
  }

  /** The multi-file loop of `save_file`: each file takes the next `length`
      bytes of what is left of the buffer, fewer or none once the buffer
      runs out, and the rest of the buffer moves on to the next file. File
      `k` thus receives the clamped window that starts where the earlier
      files end and is `length_k` long, and joined in order the files hold
      exactly the buffer's prefix of the files' total length (all of the
      buffer if it is shorter). */
  method CutIntoFiles(files: seq<FileSlot>, buffer: seq<byte>) returns (r: seq<Written>)
    ensures |r| == |files|
    ensures forall k :: 0 <= k < |files| ==>
      r[k].path == files[k].path && r[k].data == Window(buffer, FileStart(files, k), files[k].length)
    ensures Joined(r) == buffer[..Min(FileStart(files, |files|), |buffer|)]
  {
    var buf := buffer;
    var pos: nat := 0;
    r := [];
    var k := 0;
    SavedStart(files, buffer);
    while k < |files|
      invariant k <= |files| && Saved(files, buffer, k, r, pos, buf)
    {
      var cut := Min(files[k].length, |buf|);
      var w := Written(files[k].path, buf[..cut]);
      SaveStep(files, buffer, k, r, w, pos, buf, cut);
      r := r + [w];
      buf := buf[cut..];
      pos := pos + files[k].length;
      k := k + 1;
    }
  }

  lemma SavedStart(files: seq<FileSlot>, buffer: seq<byte>)
    ensures Saved(files, buffer, 0, [], 0, buffer)
  {
    assert buffer[Min(0, |buffer|)..] == buffer;
  }

  /** The loop's invariant after `k` files: `r` holds their windows, `pos`
      is where file `k` starts, `buf` is the buffer from there on and the
      files written so far hold the buffer up to there. */
  ghost predicate Saved(files: seq<FileSlot>, buffer: seq<byte>, k: nat, r: seq<Written>, pos: nat, buf: seq<byte>)
    requires k <= |files|
  {
    && |r| == k
    && pos == FileStart(files, k)
    && buf == buffer[Min(pos, |buffer|)..]
    && (forall j {:trigger r[j]} :: 0 <= j < k ==>
         r[j].path == files[j].path && r[j].data == Window(buffer, FileStart(files, j), files[j].length))
    && Joined(r) == buffer[..Min(pos, |buffer|)]
  }

  /** What one turn of the loop adds keeps the loop's invariant. */
  lemma SaveStep(files: seq<FileSlot>, buffer: seq<byte>, k: nat, r: seq<Written>, w: Written,
                 pos: nat, buf: seq<byte>, cut: nat)
    requires k < |files| && Saved(files, buffer, k, r, pos, buf)
    requires cut == Min(files[k].length, |buf|)
    requires w.path == files[k].path && w.data == buf[..cut]
    ensures Saved(files, buffer, k + 1, r + [w], pos + files[k].length, buf[cut..])
  {
    var length := files[k].length;
    CutStep(buffer, pos, length, buf, cut);
    JoinedAppend(r, w);
    WindowsStep(files, buffer, k, r, w);
    assert FileStart(files, k + 1) == pos + length;
  }

  /** One turn of the loop: with `buf` the buffer from `start` on, the
      first `length` bytes of `buf` are the window at `start`, what is left
      is the buffer from `start + length` on, and the window continues the
      prefix before `start`. */
  lemma CutStep(buffer: seq<byte>, start: nat, length: nat, buf: seq<byte>, cut: nat)
    requires buf == buffer[Min(start, |buffer|)..] && cut == Min(length, |buf|)
    ensures buf[..cut] == Window(buffer, start, length)
    ensures buf[cut..] == buffer[Min(start + length, |buffer|)..]
    ensures buffer[..Min(start, |buffer|)] + buf[..cut] == buffer[..Min(start + length, |buffer|)]
  {
  }

  /** The file written in this turn extends the windows of those before. */
  lemma WindowsStep(files: seq<FileSlot>, buffer: seq<byte>, k: nat, r: seq<Written>, w: Written)
    requires k < |files| && |r| == k
    requires forall j {:trigger r[j]} :: 0 <= j < k ==>
      r[j].path == files[j].path && r[j].data == Window(buffer, FileStart(files, j), files[j].length)
    requires w.path == files[k].path && w.data == Window(buffer, FileStart(files, k), files[k].length)
    ensures forall j {:trigger (r + [w])[j]} :: 0 <= j < k + 1 ==>
      (r + [w])[j].path == files[j].path && (r + [w])[j].data == Window(buffer, FileStart(files, j), files[j].length)
  {
    forall j | 0 <= j < k + 1
      ensures (r + [w])[j].path == files[j].path
      ensures (r + [w])[j].data == Window(buffer, FileStart(files, j), files[j].length)
    {
      if j < k {
        assert (r + [w])[j] == r[j];
      }
    }
  }

  lemma JoinedAppend(r: seq<Written>, w: Written)
    ensures Joined(r + [w]) == Joined(r) + w.data
  {
    assert (r + [w])[..|r|] == r;
  }

  /** `save_file`: in multi-file mode the per-file slices, otherwise the
      whole buffer under the torrent's name. */
  method SaveFile(multiFile: bool, files: seq<FileSlot>, name: string, buffer: seq<byte>) returns (r: seq<Written>)
    ensures multiFile ==> |r| == |files| && Joined(r) == buffer[..Min(FileStart(files, |files|), |buffer|)]
    ensures multiFile ==> forall k :: 0 <= k < |files| ==>
      r[k].path == files[k].path && r[k].data == Window(buffer, FileStart(files, k), files[k].length)
    ensures !multiFile ==> r == [Written(name, buffer)]
  {
    if multiFile {
      r := CutIntoFiles(files, buffer);
    } else {
      r := [Written(name, buffer)];
    }
  }

  lemma {:induction false} FileStartShift(files: seq<FileSlot>, k: nat)
    requires 0 < k <= |files|
    ensures FileStart(files, k) == files[0].length + FileStart(files[1..], k - 1)
  {
    if k > 1 {
      FileStartShift(files, k - 1);
    }
  }
}

=== FILE: torrent.dfy ===
/** Reading a torrent's metadata out of its decoded bencode tree: the
    announce URL, the info dictionary, the piece length, the 20-byte piece
    hashes, the file list, the name and the total length, each extracted in
    the order the constructor asks for them and each missing field raising. */
module Torrent {
  import opened Bytes
  import opened Bencode
  import PieceStore

  /** Length of one SHA-1 piece hash. */
  const HASH_LENGTH: nat := 20

  /** The path separator `/` used to join path components. */
  const SLASH: byte := 47

  /** `meta.get(b'announce', b'').decode()`: "" when absent; a value that is
      not a byte string cannot be decoded. */
  function GetAnnounce(meta: map<string, BValue>): (r: Result<string>)
    ensures "announce" !in meta ==> r == Ok("")
    ensures "announce" in meta ==> (r.Ok? <==> meta["announce"].BBytes?)
    ensures "announce" in meta && r.Ok? ==> r.value == Text(meta["announce"].s)
  {
    match Get(meta, "announce")
    case None => Ok("")
    case Some(BBytes(s)) => Ok(Text(s))
    case Some(_) => Err(TypeError)
  }

  /** `_get_info`: the info value, ValueError when it is absent or empty. */
  function GetInfo(meta: map<string, BValue>): (r: Result<BValue>)
    ensures r.Ok? <==> !Missing(meta, "info")
    ensures r.Ok? ==> r.value == meta["info"]
    ensures r.Err? ==> r.error.ValueError?
  {
    if Missing(meta, "info") then Err(ValueError("missing info section")) else Ok(meta["info"])
  }

  /** `_get_piece_length`: ValueError when absent or zero. */
  function GetPieceLength(info: map<string, BValue>): (r: Result<int>)
    ensures Missing(info, "piece length") ==> r.Err? && r.error.ValueError?
    ensures r.Ok? <==> "piece length" in info && info["piece length"].BInt? && info["piece length"].n != 0
    ensures r.Ok? ==> r.value == info["piece length"].n
  {
    match Get(info, "piece length")
    case None => Err(ValueError("missing piece length"))
    case Some(v) =>
      if !Truthy(v) then Err(ValueError("missing piece length"))
      else if v.BInt? then Ok(v.n)
      else Err(TypeError)
  }

  /** The consecutive 20-byte slices of `s`,
      `[s[i:i+20] for i in range(0, len(s), 20)]`. */
  function Chunks(s: seq<byte>): (r: seq<seq<byte>>)
    requires |s| % HASH_LENGTH == 0
    ensures |r| * HASH_LENGTH == |s|
    ensures forall k :: 0 <= k < |r| ==> r[k] == s[HASH_LENGTH * k .. HASH_LENGTH * k + HASH_LENGTH]
    ensures Concat(r) == s
    decreases |s|
  {
    if s == [] then []
    else
      var rest := Chunks(s[HASH_LENGTH..]);
      assert forall k :: 0 <= k < |rest| ==>
        rest[k] == s[HASH_LENGTH * (k + 1) .. HASH_LENGTH * (k + 1) + HASH_LENGTH] by {
        forall k | 0 <= k < |rest|
          ensures rest[k] == s[HASH_LENGTH * (k + 1) .. HASH_LENGTH * (k + 1) + HASH_LENGTH]
        {
          assert s[HASH_LENGTH..][HASH_LENGTH * k .. HASH_LENGTH * k + HASH_LENGTH]
              == s[HASH_LENGTH * (k + 1) .. HASH_LENGTH * (k + 1) + HASH_LENGTH];
        }
      }
      assert s == s[..HASH_LENGTH] + s[HASH_LENGTH..];
      [s[..HASH_LENGTH]] + rest
  }

  /** `_get_pieces`: the piece hashes. ValueError when `pieces` is absent or
      empty, or its length is not a multiple of 20; TypeError for a non-zero
      integer, which has no length; otherwise the 20-byte chunks in order,
      which joined give the field back. */
  function GetPieces(info: map<string, BValue>): (r: Result<seq<seq<byte>>>)
    ensures Missing(info, "pieces") ==> r.Err? && r.error.ValueError?
    ensures !Missing(info, "pieces") && !info["pieces"].BInt? && Len(info["pieces"]) % HASH_LENGTH != 0 ==>
      r.Err? && r.error.ValueError?
    ensures !Missing(info, "pieces") && info["pieces"].BInt? ==> r == Err(TypeError)
    ensures r.Ok? <==> "pieces" in info && info["pieces"].BBytes? && info["pieces"].s != []
                        && |info["pieces"].s| % HASH_LENGTH == 0
    ensures r.Ok? ==> r.value != [] && Concat(r.value) == info["pieces"].s
                      && |r.value| == |info["pieces"].s| / HASH_LENGTH
                      && forall k :: 0 <= k < |r.value| ==> |r.value[k]| == HASH_LENGTH
  {
    match Get(info, "pieces")
    case None => Err(ValueError("missing pieces"))
    case Some(v) =>
      if !Truthy(v) then Err(ValueError("missing pieces"))
      else if v.BInt? then Err(TypeError)
      else if Len(v) % HASH_LENGTH != 0 then Err(ValueError("bad pieces length"))
      else if v.BBytes? then Ok(Chunks(v.s))
      else Err(TypeError)
  }

  /** `_is_multi_file`: the info dictionary has a `files` key. The key
      alone decides: a `files` value that is empty, or not a list at all,
      still selects multi-file mode. */
  function IsMultiFile(info: map<string, BValue>): (r: bool)
    ensures r <==> "files" in info
    ensures "files" !in info ==> !r
    ensures "files" in info && !Truthy(info["files"]) ==> r
    ensures "files" in info && !info["files"].BList? ==> r
  {
    "files" in info
  }

  // ---------------------------------------------------------------------------
  // Paths

  /** `b'/'.join(components)`. */
  function JoinPath(components: seq<seq<byte>>): (r: seq<byte>)
  {
    JoinWith(components, SLASH)
  }

  /** A path joined from components without `/` in them splits back into
      those components. */
  lemma PathComponentsRecovered(components: seq<seq<byte>>)
    requires components != []
    requires forall k :: 0 <= k < |components| ==> Avoids(components[k], SLASH)
    ensures SplitOn(JoinPath(components), SLASH) == components
  {
    SplitJoin(components, SLASH);
  }

  // ---------------------------------------------------------------------------
  // The file list

  /** One file of the torrent: its length (None when the field is absent)
      and its path. */
  datatype FileEntry = FileEntry(length: Option<int>, path: string)

  /** The byte strings of a list, in order; TypeError for any other item. */
  function ByteStrings(items: seq<BValue>): (r: Result<seq<seq<byte>>>)
    ensures r.Ok? <==> forall k :: 0 <= k < |items| ==> items[k].BBytes?
    ensures r.Ok? ==> |r.value| == |items| && forall k :: 0 <= k < |items| ==> r.value[k] == items[k].s
  {
    if items == [] then Ok([])
    else if !items[0].BBytes? then Err(TypeError)
    else
      var rest := ByteStrings(items[1..]);
      if rest.Err? then
        assert exists k :: 0 <= k < |items[1..]| && !items[1..][k].BBytes?;
        Err(rest.error)
      else Ok([items[0].s] + rest.value)
  }

  /** The path of one file entry, `b'/'.join(file.get(b'path', []))`
      decoded. An empty byte string or dictionary joins nothing and gives
      ""; any other value that is not a list of byte strings is refused. */
  function EntryPath(file: map<string, BValue>): (r: Result<string>)
    ensures "path" !in file ==> r == Ok("")
    ensures "path" in file && !file["path"].BInt? && Len(file["path"]) == 0 ==> r == Ok("")
    ensures "path" in file && file["path"].BList? && r.Ok? ==>
      exists cs :: ByteStrings(file["path"].items) == Ok(cs) && r.value == Text(JoinPath(cs))
  {
    match Get(file, "path")
    case None => Ok("")
    case Some(BList(items)) =>
      var cs := ByteStrings(items);
      if cs.Err? then Err(cs.error) else Ok(Text(JoinPath(cs.value)))
    case Some(BBytes(s)) => if s == [] then Ok("") else Err(TypeError)
    case Some(BDict(m)) => if m == map[] then Ok("") else Err(TypeError)
    case Some(BInt(_)) => Err(TypeError)
  }

  /** A `length` field as read: None when absent, the integer when there is
      one; any other value is refused. */
  function LengthField(v: Option<BValue>): (r: Result<Option<int>>)
    ensures v.None? ==> r == Ok(None)
    ensures r.Ok? && r.value.Some? <==> v.Some? && v.value.BInt?
    ensures r.Ok? && r.value.Some? ==> r.value.value == v.value.n
  {
    match v
    case None => Ok(None)
    case Some(BInt(n)) => Ok(Some(n))
    case Some(_) => Err(TypeError)
  }

  /** One item of the `files` list: a dictionary with `length` and `path`. */
  function FileOf(item: BValue): (r: Result<FileEntry>)
    ensures r.Ok? ==> item.BDict?
    ensures r.Ok? ==> LengthField(Get(item.entries, "length")) == Ok(r.value.length)
                      && EntryPath(item.entries) == Ok(r.value.path)
  {
    if !item.BDict? then Err(TypeError)
    else
      var length := LengthField(Get(item.entries, "length"));
      var path := EntryPath(item.entries);
      if length.Err? then Err(length.error)
      else if path.Err? then Err(path.error)
      else Ok(FileEntry(length.value, path.value))
  }

  /** The multi-file loop: one entry per item, in order, or the first error. */
  function FilesOf(items: seq<BValue>): (r: Result<seq<FileEntry>>)
    ensures r.Ok? <==> forall k :: 0 <= k < |items| ==> FileOf(items[k]).Ok?
    ensures r.Ok? ==> |r.value| == |items| && forall k :: 0 <= k < |items| ==> r.value[k] == FileOf(items[k]).value
  {
    if items == [] then Ok([])
    else
      var first := FileOf(items[0]);
      if first.Err? then Err(first.error)
      else
        var rest := FilesOf(items[1..]);
        if rest.Err? then
          assert exists k :: 0 <= k < |items[1..]| && FileOf(items[1..][k]).Err?;
          Err(rest.error)
        else Ok([first.value] + rest.value)
  }

  /** `_get_files`. In multi-file mode, one entry per item of `files`, in
      order (an empty container gives no entries). Otherwise exactly one
      entry, with the info dictionary's `length` and its `name` ("" when
      absent) as path. */
  function GetFiles(info: map<string, BValue>, multiFile: bool): (r: Result<seq<FileEntry>>)
    ensures multiFile && "files" in info && info["files"].BList? ==>
      r == FilesOf(info["files"].items)
    ensures multiFile && r.Ok? && "files" in info && info["files"].BList? ==>
      |r.value| == |info["files"].items|
    ensures !multiFile ==>
      (r.Ok? <==> LengthField(Get(info, "length")).Ok? && ("name" !in info || info["name"].BBytes?))
    ensures !multiFile && r.Ok? ==>
      |r.value| == 1 &&
      LengthField(Get(info, "length")) == Ok(r.value[0].length) &&
      r.value[0].path == (if "name" in info && info["name"].BBytes? then Text(info["name"].s) else "")
  {
    if multiFile then
      match Get(info, "files")
      case None => Ok([])
      case Some(BList(items)) => FilesOf(items)
      case Some(v) => if Truthy(v) || v.BInt? then Err(TypeError) else Ok([])
    else
      var length := LengthField(Get(info, "length"));
      var name := match Get(info, "name")
                  case None => Ok("")
                  case Some(BBytes(s)) => Ok(Text(s))
                  case Some(_) => Err(TypeError);
      if length.Err? then Err(length.error)
      else if name.Err? then Err(name.error)
      else Ok([FileEntry(length.value, name.value)])
  }

  /** `_get_name`: the decoded name, ValueError when absent or empty. */
  function GetName(info: map<string, BValue>): (r: Result<string>)
    ensures Missing(info, "name") ==> r.Err? && r.error.ValueError?
    ensures r.Ok? <==> "name" in info && info["name"].BBytes? && info["name"].s != []
    ensures r.Ok? ==> r.value == Text(info["name"].s)
  {
    match Get(info, "name")
    case None => Err(ValueError("missing name"))
    case Some(v) =>
      if !Truthy(v) then Err(ValueError("missing name"))
      else if v.BBytes? then Ok(Text(v.s))
      else Err(TypeError)
  }

  /** `sum(file['length'] for file in files)`: TypeError when some length
      is absent. */
  function SumLengths(files: seq<FileEntry>): (r: Result<int>)
    ensures r.Ok? <==> forall k :: 0 <= k < |files| ==> files[k].length.Some?
  {
    if files == [] then Ok(0)
    else if files[0].length.None? then Err(TypeError)
    else
      var rest := SumLengths(files[1..]);
      if rest.Err? then
        assert exists k :: 0 <= k < |files[1..]| && files[1..][k].length.None?;
        Err(rest.error)
      else Ok(files[0].length.value + rest.value)
  }

  /** `_get_total_length`: the sum of the lengths in multi-file mode, the
      single entry's length (possibly absent) otherwise. */
  function TotalLength(files: seq<FileEntry>, multiFile: bool): (r: Result<Option<int>>)
    ensures multiFile ==> (r.Ok? <==> forall k :: 0 <= k < |files| ==> files[k].length.Some?)
    ensures multiFile && r.Ok? ==> r.value.Some?
    ensures !multiFile ==> (r.Ok? <==> files != [])
    ensures !multiFile && r.Ok? ==> r.value == files[0].length
  {
    if multiFile then
      var total := SumLengths(files);
      if total.Err? then Err(total.error) else Ok(Some(total.value))
    else if files == [] then Err(IndexError)
    else Ok(files[0].length)
  }

  /** The file layout the piece store cuts the buffer along. */
  predicate HasLayout(files: seq<FileEntry>)
  {
    forall k :: 0 <= k < |files| ==> files[k].length.Some? && files[k].length.value >= 0
  }

  function Layout(files: seq<FileEntry>): (r: seq<PieceStore.FileSlot>)
    requires HasLayout(files)
    ensures |r| == |files|
    ensures forall k :: 0 <= k < |files| ==>
      r[k] == PieceStore.FileSlot(files[k].path, files[k].length.value)
  {
    if files == [] then []
    else [PieceStore.FileSlot(files[0].path, files[0].length.value)] + Layout(files[1..])
  }

  /** In multi-file mode the total length is where the last file ends: the
      files' consecutive slices cover exactly the total length. */
  lemma {:induction false} TotalLengthIsLayoutEnd(files: seq<FileEntry>)
    requires HasLayout(files)
    ensures TotalLength(files, true) == Ok(Some(PieceStore.FileStart(Layout(files), |files|)))
  {
    if files != [] {
      TotalLengthIsLayoutEnd(files[1..]);
      PieceStore.FileStartShift(Layout(files), |files|);
      assert Layout(files)[1..] == Layout(files[1..]);
    }
  }

  // ---------------------------------------------------------------------------
  // The whole reader

  datatype TorrentFile = TorrentFile(
    announce: string,
    info: map<string, BValue>,
    multiFile: bool,
    pieceLength: int,
    hashes: seq<seq<byte>>,
    files: seq<FileEntry>,
    name: string,
    totalLength: Option<int>)

  /** The constructor: every field extracted in order from the decoded
      metadata, the first failure ending the construction. */
  function Extract(meta: BValue): (r: Result<TorrentFile>)
    ensures r.Ok? ==> meta.BDict? && !Missing(meta.entries, "info") && meta.entries["info"].BDict?
    ensures r.Ok? ==>
      var info := meta.entries["info"].entries;
      var t := r.value;
      t.info == info &&
      GetAnnounce(meta.entries) == Ok(t.announce) &&
      (t.multiFile <==> "files" in info) &&
      t.pieceLength != 0 &&
      GetPieceLength(info) == Ok(t.pieceLength) &&
      GetPieces(info) == Ok(t.hashes) &&
      "pieces" in info && info["pieces"].BBytes? &&
      t.hashes != [] && Concat(t.hashes) == info["pieces"].s &&
      (forall k :: 0 <= k < |t.hashes| ==> |t.hashes[k]| == HASH_LENGTH) &&
      GetFiles(info, t.multiFile) == Ok(t.files) &&
      t.name != [] && GetName(info) == Ok(t.name) &&
      TotalLength(t.files, t.multiFile) == Ok(t.totalLength)
    ensures !meta.BDict? || GetInfo(meta.entries).Err? ==> r.Err?
  {
    if !meta.BDict? then Err(TypeError)
    else
      var announce := GetAnnounce(meta.entries);
      if announce.Err? then Err(announce.error)
      else
        var infoValue := GetInfo(meta.entries);
        if infoValue.Err? then Err(infoValue.error)
        else if !infoValue.value.BDict? then Err(TypeError)
        else
          var info := infoValue.value.entries;
          var multi := IsMultiFile(info);
          var pieceLength := GetPieceLength(info);
          if pieceLength.Err? then Err(pieceLength.error)
          else
            var pieces := GetPieces(info);
            if pieces.Err? then Err(pieces.error)
            else
              var files := GetFiles(info, multi);
              if files.Err? then Err(files.error)
              else
                var name := GetName(info);
                if name.Err? then Err(name.error)
                else
                  var total := TotalLength(files.value, multi);
                  if total.Err? then Err(total.error)
                  else Ok(TorrentFile(announce.value, info, multi, pieceLength.value, pieces.value,
                                      files.value, name.value, total.value))
  }
}

=== FILE: tracker.dfy ===
/** The tracker's side of the download: the announce parameters and the
    peer list of the announce response, in its two shapes: a list of
    dictionaries, or the compact string of BEP 23 (6 bytes per peer, the
    IPv4 address then the big-endian port). */
module Tracker {
  import opened Bytes
  import opened Bencode
  import Hex

  /** A peer address as the parsers return it, `(ip, port)`. */
  datatype Peer = Peer(ip: string, port: int)

  /** Length of one compact peer record. */
  const COMPACT_RECORD: nat := 6

  // ---------------------------------------------------------------------------
  // Dotted-quad addresses

  function DigitChar(d: nat): (c: char)
    requires d < 10
  {
    "0123456789"[d]
  }

  /** Decimal digits of `n`, no leading zeros (`str(n)`). */
  function Decimal(n: nat): (s: string)
    ensures s != []
    ensures forall j :: 0 <= j < |s| ==> '0' <= s[j] <= '9'
  {
    if n < 10 then [DigitChar(n)] else Decimal(n / 10) + [DigitChar(n % 10)]
  }

  /** The number a non-empty run of decimal digits stands for; None for
      anything else. */
  function ParseDecimal(s: string): (r: Option<nat>)
    ensures r.Some? <==> s != [] && forall j :: 0 <= j < |s| ==> '0' <= s[j] <= '9'
  {
    if s == [] || !('0' <= s[|s| - 1] <= '9') then None
    else
      var d := s[|s| - 1] as int - '0' as int;
      if |s| == 1 then Some(d)
      else
        var front := ParseDecimal(s[..|s| - 1]);
        if front.None? then None
        else
          assert forall j :: 0 <= j < |s| ==> '0' <= s[j] <= '9' by {
            forall j | 0 <= j < |s| ensures '0' <= s[j] <= '9' {
              if j < |s| - 1 { assert s[j] == s[..|s| - 1][j]; }
            }
          }
          Some(front.value * 10 + d)
  }

  /** Reading the decimal text of a number gives the number back. */
  lemma {:induction false} ParseDecimalOfDecimal(n: nat)
    ensures ParseDecimal(Decimal(n)) == Some(n)
  {
    if n >= 10 {
      var s := Decimal(n);
      assert s[..|s| - 1] == Decimal(n / 10);
      ParseDecimalOfDecimal(n / 10);
    }
  }

  /** `socket.inet_ntoa` of a 4-byte address: the four byte values in
      decimal, joined by dots. */
  function DottedQuad(a: seq<byte>): (s: string)
    requires |a| == 4
    ensures SplitOn(s, '.') == [Decimal(a[0]), Decimal(a[1]), Decimal(a[2]), Decimal(a[3])]
  {
    var parts := [Decimal(a[0]), Decimal(a[1]), Decimal(a[2]), Decimal(a[3])];
    assert forall k :: 0 <= k < 4 ==> Avoids(parts[k], '.');
    SplitJoin(parts, '.');
    JoinWith(parts, '.')
  }

  /** The 4-byte address written by a dotted quad; None unless the text is
      four dot-separated decimal numbers below 256. */
  function ParseDottedQuad(s: string): (r: Option<seq<byte>>)
    ensures r.Some? ==> |r.value| == 4
  {
    var parts := SplitOn(s, '.');
    if |parts| != 4 then None
    else
      match (ParseDecimal(parts[0]), ParseDecimal(parts[1]), ParseDecimal(parts[2]), ParseDecimal(parts[3]))
      case (Some(a), Some(b), Some(c), Some(d)) =>
        if a < 256 && b < 256 && c < 256 && d < 256 then Some([a, b, c, d]) else None
      case _ => None
  }

  /** The dotted quad of an address reads back as that address, so distinct
      addresses print differently. */
  lemma DottedQuadReadsBack(a: seq<byte>)
    requires |a| == 4
    ensures ParseDottedQuad(DottedQuad(a)) == Some(a)
  {
    var parts := [Decimal(a[0]), Decimal(a[1]), Decimal(a[2]), Decimal(a[3])];
    forall k | 0 <= k < 4 ensures Avoids(parts[k], '.') {
    }
    SplitJoin(parts, '.');
    ParseDecimalOfDecimal(a[0]);
    ParseDecimalOfDecimal(a[1]);
    ParseDecimalOfDecimal(a[2]);
    ParseDecimalOfDecimal(a[3]);
    assert [a[0], a[1], a[2], a[3]] == a;
  }

  // ---------------------------------------------------------------------------
  // Compact peer lists

  /** The peer of the 6-byte record at `s[6k .. 6k + 6]`. */
  function CompactPeer(s: seq<byte>, k: nat): Peer
    requires COMPACT_RECORD * k + COMPACT_RECORD <= |s|
  {
    var at := COMPACT_RECORD * k;
    Peer(DottedQuad(s[at .. at + 4]), ReadBE16(s[at + 4 .. at + 6]))
  }

  /** A compact peer string of whole records, one peer per record in order. */
  function DecodeCompact(s: seq<byte>): (r: seq<Peer>)
    requires |s| % COMPACT_RECORD == 0
    ensures |r| * COMPACT_RECORD == |s|
    ensures forall k :: 0 <= k < |r| ==> r[k] == CompactPeer(s, k)
    decreases |s|
  {
    if s == [] then []
    else
      var rest := DecodeCompact(s[COMPACT_RECORD..]);
      var r := [CompactPeer(s, 0)] + rest;
      forall k | 0 < k < |r| ensures r[k] == CompactPeer(s, k) {
        assert r[k] == rest[k - 1];
        CompactPeerShift(s, k - 1);
      }
      r
  }

  lemma CompactPeerShift(s: seq<byte>, k: nat)
    requires COMPACT_RECORD * (k + 1) + COMPACT_RECORD <= |s|
    ensures CompactPeer(s[COMPACT_RECORD..], k) == CompactPeer(s, k + 1)
  {
    var at := COMPACT_RECORD * k;
    assert s == s[..COMPACT_RECORD] + s[COMPACT_RECORD..];
    SliceAfter(s[..COMPACT_RECORD], s[COMPACT_RECORD..], at, at + 4);
    SliceAfter(s[..COMPACT_RECORD], s[COMPACT_RECORD..], at + 4, at + 6);
  }

  /** The compact branch of the peer parsers: the loop over
      `range(0, len(peers), 6)` raises (in `inet_ntoa` or `struct.unpack`)
      on a trailing partial record, so a string that is not whole records
      fails as a whole. */
  function CompactPeers(s: seq<byte>): (r: Result<seq<Peer>>)
    ensures r.Ok? <==> |s| % COMPACT_RECORD == 0
    ensures r.Ok? ==> (|r.value| * COMPACT_RECORD == |s|
      && forall k :: 0 <= k < |r.value| ==> r.value[k] == CompactPeer(s, k))
  {
    if |s| % COMPACT_RECORD == 0 then Ok(DecodeCompact(s)) else Err(StructError)
  }

  /** A raw peer address: 4 address bytes and a port. */
  datatype Endpoint = Endpoint(address: seq<byte>, port: u16)

  predicate WellFormed(e: Endpoint)
  {
    |e.address| == 4
  }

  /** The compact string a tracker sends for a list of addresses. */
  function EncodeCompact(eps: seq<Endpoint>): (s: seq<byte>)
    requires forall k :: 0 <= k < |eps| ==> WellFormed(eps[k])
    ensures |s| == COMPACT_RECORD * |eps|
  {
    if eps == [] then []
    else
      assert WellFormed(eps[0]);
      eps[0].address + BE16(eps[0].port) + EncodeCompact(eps[1..])
  }

  /** Decoding the compact string of a list of addresses gives one peer per
      address, in order, whose ip reads back as the address and whose port
      is the port. */
  lemma {:induction false} CompactRoundTrip(eps: seq<Endpoint>)
    requires forall k :: 0 <= k < |eps| ==> WellFormed(eps[k])
    ensures var r := CompactPeers(EncodeCompact(eps));
      r.Ok? && |r.value| == |eps| &&
      forall k :: 0 <= k < |eps| ==>
        ParseDottedQuad(r.value[k].ip) == Some(eps[k].address) && r.value[k].port == eps[k].port
    decreases |eps|
  {
    var s := EncodeCompact(eps);
    var r := CompactPeers(s);
    forall k | 0 <= k < |eps|
      ensures ParseDottedQuad(r.value[k].ip) == Some(eps[k].address) && r.value[k].port == eps[k].port
    {
      CompactRecordAt(eps, k);
      DottedQuadReadsBack(eps[k].address);
    }
  }

  /** Record `k` of the compact string is the `k`-th address and port. */
  lemma {:induction false} CompactRecordAt(eps: seq<Endpoint>, k: nat)
    requires forall j :: 0 <= j < |eps| ==> WellFormed(eps[j])
    requires k < |eps|
    ensures var s := EncodeCompact(eps);
      s[COMPACT_RECORD * k .. COMPACT_RECORD * k + 4] == eps[k].address &&
      s[COMPACT_RECORD * k + 4 .. COMPACT_RECORD * k + 6] == BE16(eps[k].port)
  {
    if k > 0 {
      CompactRecordAt(eps[1..], k - 1);
      var head := eps[0].address + BE16(eps[0].port);
      var tail := EncodeCompact(eps[1..]);
      assert EncodeCompact(eps) == head + tail;
      var before := COMPACT_RECORD * (k - 1);
      SliceAfter(head, tail, before, before + 4);
      SliceAfter(head, tail, before + 4, before + 6);
    }
  }

  /** The BEP 23 example: `7f 00 00 01 1a e1` is 127.0.0.1 port 6881. */
  lemma CompactExample()
    ensures CompactPeers([0x7f, 0, 0, 1, 0x1a, 0xe1]) == Ok([Peer("127.0.0.1", 6881)])
  {
    var s: seq<byte> := [0x7f, 0, 0, 1, 0x1a, 0xe1];
    LoopbackRecord(s);
    var r := CompactPeers(s);
    assert r.Ok? && |r.value| == 1;
    var p := Peer("127.0.0.1", 6881);
    assert r.value[0] == p;
    assert r.value == [p];
  }

  lemma LoopbackRecord(s: seq<byte>)
    requires s == [0x7f, 0, 0, 1, 0x1a, 0xe1]
    ensures CompactPeer(s, 0) == Peer("127.0.0.1", 6881)
  {
    assert s[0..4] == [127, 0, 0, 1];
    LoopbackQuad();
    assert s[4..6] == [0x1a, 0xe1];
  }

  lemma LoopbackQuad()
    ensures DottedQuad([127, 0, 0, 1]) == "127.0.0.1"
  {
    DecimalExamples();
    assert JoinWith(["0", "1"], '.') == "0.1";
    assert JoinWith(["0", "0", "1"], '.') == "0.0.1";
    assert JoinWith(["127", "0", "0", "1"], '.') == "127.0.0.1";
  }

  lemma DecimalExamples()
    ensures Decimal(0) == "0" && Decimal(1) == "1" && Decimal(127) == "127"
  {
    assert Decimal(12) == "12";
  }

  // ---------------------------------------------------------------------------
  // Non-compact peer lists

  /** One entry of a non-compact list: `(peer[b"ip"].decode(), peer[b"port"])`.
      KeyError for a missing key; TypeError for an entry that is not a
      dictionary, an ip that is not a byte string, or a port that is not an
      integer. */
  function DictPeer(entry: BValue): (r: Result<Peer>)
    ensures r.Ok? <==> entry.BDict? && "ip" in entry.entries && "port" in entry.entries
                        && entry.entries["ip"].BBytes? && entry.entries["port"].BInt?
    ensures r.Ok? ==> r.value == Peer(Text(entry.entries["ip"].s), entry.entries["port"].n)
    ensures entry.BDict? && "ip" !in entry.entries ==> r == Err(KeyError)
    ensures entry.BDict? && "ip" in entry.entries && entry.entries["ip"].BBytes? && "port" !in entry.entries ==>
      r == Err(KeyError)
    ensures !entry.BDict? ==> r == Err(TypeError)
  {
    if !entry.BDict? then Err(TypeError)
    else if "ip" !in entry.entries then Err(KeyError)
    else if !entry.entries["ip"].BBytes? then Err(TypeError)
    else if "port" !in entry.entries then Err(KeyError)
    else if !entry.entries["port"].BInt? then Err(TypeError)
    else Ok(Peer(Text(entry.entries["ip"].s), entry.entries["port"].n))
  }

  /** The non-compact branch: one peer per entry, in order, or the first
      entry's error. */
  function DictPeers(entries: seq<BValue>): (r: Result<seq<Peer>>)
    ensures r.Ok? <==> forall k :: 0 <= k < |entries| ==> DictPeer(entries[k]).Ok?
    ensures r.Ok? ==> (|r.value| == |entries|
      && forall k :: 0 <= k < |entries| ==> r.value[k] == DictPeer(entries[k]).value)
  {
    if entries == [] then Ok([])
    else
      var first := DictPeer(entries[0]);
      if first.Err? then Err(first.error)
      else
        var rest := DictPeers(entries[1..]);
        if rest.Err? then
          assert exists k :: 0 <= k < |entries[1..]| && DictPeer(entries[1..][k]).Err?;
          Err(rest.error)
        else Ok([first.value] + rest.value)
  }

  /** The peers of a `peers` value: a list is the non-compact form, anything
      else is taken as a compact string. An empty dictionary has no records;
      a non-empty one or an integer cannot be sliced. */
  function PeersOf(v: BValue): (r: Result<seq<Peer>>)
    ensures v.BList? ==> r == DictPeers(v.items)
    ensures v.BBytes? ==> r == CompactPeers(v.s)
    ensures v.BInt? ==> r.Err?
    ensures v.BDict? && v.entries == map[] ==> r == Ok([])
    ensures v.BDict? && v.entries != map[] ==> r == Err(TypeError)
  {
    match v
    case BList(items) => DictPeers(items)
    case BBytes(s) => CompactPeers(s)
    case BDict(m) => if m == map[] then Ok([]) else Err(TypeError)
    case BInt(_) => Err(TypeError)
  }

  /** `Tracker._parse_response` on the decoded response: `decoded[b"peers"]`
      with no default (KeyError when absent), then the peers of that value;
      every error propagates. */
  function ParseResponse(decoded: BValue): (r: Result<seq<Peer>>)
    ensures !decoded.BDict? ==> r.Err?
    ensures decoded.BDict? && "peers" !in decoded.entries ==> r == Err(KeyError)
    ensures decoded.BDict? && "peers" in decoded.entries ==> r == PeersOf(decoded.entries["peers"])
  {
    if !decoded.BDict? then Err(TypeError)
    else if "peers" !in decoded.entries then Err(KeyError)
    else PeersOf(decoded.entries["peers"])
  }

  // ---------------------------------------------------------------------------
  // Announce parameters

  /** A query parameter value before URL encoding. */
  datatype Param = PBytes(b: seq<byte>) | PInt(n: int)

  /** `_get_url_params` before `urlencode`: seven parameters, the info hash
      turned from hex into raw bytes (ValueError when the hex is malformed),
      nothing uploaded or downloaded yet, the whole length left, compact
      peers asked for. The peer id is taken already encoded. */
  function UrlParams(infoHashHex: string, peerId: seq<byte>, port: int, totalLength: int): (r: Result<map<string, Param>>)
    ensures r.Ok? <==> Hex.IsHex(infoHashHex)
    ensures r.Ok? ==> r.value.Keys == {"info_hash", "peer_id", "port", "uploaded", "downloaded", "left", "compact"}
    ensures r.Ok? ==>
      r.value["info_hash"].PBytes? && 2 * |r.value["info_hash"].b| == |infoHashHex| &&
      r.value["peer_id"] == PBytes(peerId) && r.value["port"] == PInt(port) &&
      r.value["uploaded"] == PInt(0) && r.value["downloaded"] == PInt(0) &&
      r.value["left"] == PInt(totalLength) && r.value["compact"] == PInt(1)
  {
    match Hex.FromHex(infoHashHex)
    case None => Err(ValueError("non-hexadecimal number found in fromhex() arg"))
    case Some(raw) =>
      Ok(map["info_hash" := PBytes(raw), "peer_id" := PBytes(peerId), "port" := PInt(port),
             "uploaded" := PInt(0), "downloaded" := PInt(0), "left" := PInt(totalLength),
             "compact" := PInt(1)])
  }

  /** With the hex digest of a 20-byte SHA-1 hash, the `info_hash`
      parameter is those 20 raw bytes. */
  lemma UrlParamsCarryRawHash(digest: seq<byte>, peerId: seq<byte>, port: int, totalLength: int)
    requires |digest| == 20
    ensures var r := UrlParams(Hex.ToHex(digest), peerId, port, totalLength);
      r.Ok? && r.value["info_hash"] == PBytes(digest) && |r.value["info_hash"].b| == 20
  {
    Hex.FromHexToHex(digest);
  }
}

=== FILE: wire.dfy ===
/** The peer-wire byte formats of the "peer protocol" section of BEP 3 (the
    BitTorrent Protocol Specification): the handshake, the 4-byte big-endian
    length-prefixed message frame, and the payloads of the messages the
    download engine sends or reads. */
module Wire {
  import opened Bytes

  /** Message ids of BEP 3 that the engine reacts to or sends. */
  const CHOKE: byte := 0
  const UNCHOKE: byte := 1
  const INTERESTED: byte := 2
  const HAVE: byte := 4
  const BITFIELD: byte := 5
  const REQUEST: byte := 6
  const PIECE: byte := 7

  /** The 19 ASCII bytes of "BitTorrent protocol". */
  const PROTOCOL: seq<byte> :=
    [66, 105, 116, 84, 111, 114, 114, 101, 110, 116, 32, 112, 114, 111, 116, 111, 99, 111, 108]

  /** Length of a handshake whose two identifiers are 20 bytes each. */
  const HANDSHAKE_LENGTH: nat := 68

  // ---------------------------------------------------------------------------
  // Handshake

  /** The handshake built by joining its parts: the byte 19, the protocol
      name, 8 reserved zero bytes, the info hash and the peer id, each taken
      as it is (no padding). */
  function Handshake(infoHash: seq<byte>, peerId: seq<byte>): (r: seq<byte>)
    ensures |r| == 28 + |infoHash| + |peerId|
    ensures r[..28] == [19] + PROTOCOL + Zeros(8) && r[28..] == infoHash + peerId
    ensures |infoHash| == 20 && |peerId| == 20 ==>
      |r| == HANDSHAKE_LENGTH && ParseHandshake(r) == Some(HandshakeFields(infoHash, peerId))
  {
    var r := [19] + PROTOCOL + Zeros(8) + infoHash + peerId;
    assert r[1..20] == PROTOCOL;
    assert |infoHash| == 20 && |peerId| == 20 ==> r[28..48] == infoHash && r[48..68] == peerId;
    r
  }

  /** `b` padded with zero bytes or truncated to exactly `n` bytes, as the
      struct format `<n>s` packs a byte string. */
  function Fit(b: seq<byte>, n: nat): (r: seq<byte>)
    ensures |r| == n
    ensures |b| >= n ==> r == b[..n]
    ensures |b| < n ==> r[..|b|] == b && r[|b|..] == Zeros(n - |b|)
  {
    if |b| >= n then b[..n] else b + Zeros(n - |b|)
  }

  /** The handshake packed with the struct format `!B19s8s20s20s`: always
      68 bytes, the same as the joined handshake of the two identifiers
      fitted to 20 bytes each. */
  function PackedHandshake(infoHash: seq<byte>, peerId: seq<byte>): (r: seq<byte>)
    ensures |r| == HANDSHAKE_LENGTH
    ensures r == Handshake(Fit(infoHash, 20), Fit(peerId, 20))
    ensures ParseHandshake(r) == Some(HandshakeFields(Fit(infoHash, 20), Fit(peerId, 20)))
  {
    [19] + Fit(PROTOCOL, 19) + Fit(Zeros(8), 8) + Fit(infoHash, 20) + Fit(peerId, 20)
  }

  datatype HandshakeFields = HandshakeFields(infoHash: seq<byte>, peerId: seq<byte>)

  /** The fields of a 68-byte handshake, read back by position; None when the
      length, the leading 19 or the protocol name is wrong. The reserved
      bytes carry extension bits and are not checked. */
  function ParseHandshake(r: seq<byte>): (f: Option<HandshakeFields>)
    ensures f.Some? ==> |r| == HANDSHAKE_LENGTH && |f.value.infoHash| == 20 && |f.value.peerId| == 20
    ensures f.Some? ==> r[28..] == f.value.infoHash + f.value.peerId
  {
    if |r| == HANDSHAKE_LENGTH && r[0] == 19 && r[1..20] == PROTOCOL then
      Some(HandshakeFields(r[28..48], r[48..68]))
    else None
  }

  /** `readexactly(n)` on the bytes still to arrive: the next `n` bytes and
      what follows them, or None (IncompleteReadError) when fewer remain. */
  function ReadExactly(stream: seq<byte>, n: nat): (r: Option<(seq<byte>, seq<byte>)>)
    ensures r.Some? <==> n <= |stream|
    ensures r.Some? ==> |r.value.0| == n && r.value.0 + r.value.1 == stream
  {
    if n <= |stream| then Some((stream[..n], stream[n..])) else None
  }

  // ---------------------------------------------------------------------------
  // Message frames

  /** A frame after the handshake: a keep-alive (length 0) or a message. */
  datatype Frame = KeepAlive | Message(id: byte, payload: seq<byte>)

  /** The frame's length field, the id plus the payload, fits 4 bytes. */
  predicate Encodable(f: Frame)
  {
    f.Message? ==> 1 + |f.payload| < U32_LIMIT
  }

  /** `[4-byte big-endian length][id][payload]`, the length counting the id
      and the payload; a keep-alive is the length 0 alone. */
  function EncodeFrame(f: Frame): (r: seq<byte>)
    requires Encodable(f)
    ensures f.KeepAlive? ==> r == [0, 0, 0, 0]
    ensures f.Message? ==> |r| == 5 + |f.payload| && ReadBE32(r[..4]) == 1 + |f.payload|
  {
    match f
    case KeepAlive => BE32(0)
    case Message(id, payload) => BE32(1 + |payload|) + [id] + payload
  }

  datatype ReadResult = Read(frame: Frame, rest: seq<byte>) | Incomplete

  /** Reading one frame from the bytes still to arrive: the length prefix,
      then (if it is not 0) the id and `length - 1` payload bytes. Incomplete
      stands for the IncompleteReadError of a short stream. */
  function ReadFrame(stream: seq<byte>): (r: ReadResult)
    ensures r.Read? ==> Encodable(r.frame) && stream == EncodeFrame(r.frame) + r.rest
    ensures r.Read? ==> |r.rest| + 4 <= |stream| && IsSuffix(r.rest, stream)
    ensures r.Incomplete? <==> |stream| < 4 || |stream| < 4 + ReadBE32(stream[..4])
  {
    if |stream| < 4 then Incomplete
    else
      var length := ReadBE32(stream[..4]);
      ReadBE32Inverse(stream[..4]);
      if length == 0 then
        assert stream == stream[..4] + stream[4..];
        Read(KeepAlive, stream[4..])
      else if |stream| < 4 + length then Incomplete
      else
        var f := Message(stream[4], stream[5..4 + length]);
        assert stream == stream[..4] + [stream[4]] + stream[5..4 + length] + stream[4 + length..];
        Read(f, stream[4 + length..])
  }

  /** Reading an encoded frame gives the frame and leaves what followed it. */
  lemma EncodedFrameReadsBack(f: Frame, rest: seq<byte>)
    requires Encodable(f)
    ensures ReadFrame(EncodeFrame(f) + rest) == Read(f, rest)
  {
    var s := EncodeFrame(f) + rest;
    assert s[..4] == EncodeFrame(f)[..4];
    match f
    case KeepAlive =>
      assert s[4..] == rest;
    case Message(id, payload) =>
      var n := 1 + |payload|;
      assert s[4] == id;
      assert s[5..4 + n] == payload;
      assert s[4 + n..] == rest;
  }

  /** The interested message with its frame, `00 00 00 01 02`. */
  function InterestedFrame(): (r: seq<byte>)
    ensures r == EncodeFrame(Message(INTERESTED, []))
  {
    [0, 0, 0, 1, 2]
  }

  // ---------------------------------------------------------------------------
  // Message payloads

  /** A framed `request` message for the block from `begin` up to `begin + length` of a
      piece: `BE32(13) ++ [6] ++ BE32(index) ++ BE32(begin) ++ BE32(length)`,
      17 bytes in all. */
  function RequestMessage(index: u32, begin: u32, length: u32): (r: seq<byte>)
    ensures |r| == 17
    ensures r == EncodeFrame(Message(REQUEST, BE32(index) + BE32(begin) + BE32(length)))
  {
    BE32(13) + [6] + BE32(index) + BE32(begin) + BE32(length)
  }

  datatype BlockRequest = BlockRequest(index: u32, begin: u32, length: u32)

  /** The three fields of a `request` payload; None unless it is 12 bytes. */
  function ParseRequest(payload: seq<byte>): (r: Option<BlockRequest>)
    ensures r.Some? <==> |payload| == 12
  {
    if |payload| == 12 then
      Some(BlockRequest(ReadBE32(payload[..4]), ReadBE32(payload[4..8]), ReadBE32(payload[8..])))
    else None
  }

  /** A request message reads back as a `request` frame whose fields are the
      index, offset and length it was built from. */
  lemma RequestMessageReadsBack(index: u32, begin: u32, length: u32, rest: seq<byte>)
    ensures ReadFrame(RequestMessage(index, begin, length) + rest).Read?
    ensures var r := ReadFrame(RequestMessage(index, begin, length) + rest);
      r.rest == rest && r.frame.Message? && r.frame.id == REQUEST &&
      ParseRequest(r.frame.payload) == Some(BlockRequest(index, begin, length))
  {
    var p := BE32(index) + BE32(begin) + BE32(length);
    EncodedFrameReadsBack(Message(REQUEST, p), rest);
    assert p[..4] == BE32(index) && p[4..8] == BE32(begin) && p[8..] == BE32(length);
  }

  /** The piece index of a `have` payload (`struct.unpack("!I", payload)`);
      StructError unless the payload is exactly 4 bytes. */
  function ParseHave(payload: seq<byte>): (r: Result<u32>)
    ensures r.Ok? <==> |payload| == 4
    ensures r.Ok? ==> BE32(r.value) == payload
  {
    if |payload| == 4 then ReadBE32Inverse(payload); Ok(ReadBE32(payload)) else Err(StructError)
  }

  datatype Block = Block(index: u32, begin: u32, data: seq<byte>)

  /** The index, offset and data of a `piece` payload; StructError when it is
      shorter than the two 4-byte fields. */
  function ParsePiece(payload: seq<byte>): (r: Result<Block>)
    ensures r.Ok? <==> |payload| >= 8
    ensures r.Ok? ==> BE32(r.value.index) + BE32(r.value.begin) + r.value.data == payload
  {
    if |payload| < 8 then Err(StructError)
    else
      ReadBE32Inverse(payload[..4]);
      ReadBE32Inverse(payload[4..8]);
      assert payload == payload[..4] + payload[4..8] + payload[8..];
      Ok(Block(ReadBE32(payload[..4]), ReadBE32(payload[4..8]), payload[8..]))
  }
}
